=== FILE: README.md ===
# Meow Mayhem room engine, modelled in Dafny

This project models the authoritative room server of Meow Mayhem, a two-player
cat game served over socket.io (`index.js`). It covers the room table and
each connection's room, and the seven room-level handlers:

- `create-room`
- `join-room`
- `start-game`
- `player-update`
- `player-action`
- `request-treat`
- `disconnect`

It also covers the 20 Hz per-room tick (`updateGameState`) with all of its
entities:

- drifting treats and the treat respawn timer;
- bouncing roombas and homing lasers;
- the doge, which chases, captures and eats a player, and despawns;
- random power-ups and weather;
- the periodic "secret sauce" frenzy.

Finally, it covers the stale-room sweep and the entity generators.

The state is immutable data, and every handler is a pure function. Each
handler takes a `Server` (the `rooms` map plus each connection's `roomCode`)
and returns a `Reply`: the new server plus the messages it sends, each with
its audience (sender, rest of the room, whole room). A JavaScript object used
as a dictionary (`room.players`) is a `Roster`: a map plus the key insertion
order. That order decides who becomes host after a disconnect and whom the
doge scans first. Time (`Date.now()`) is a parameter. Every `Math.random()`
is an injected draw, a real in [0, 1) or a boolean for `Math.random() < p`.

Module layout:

- `Seqs` and `Roster`: sequences and the JavaScript object model.
- `Config`: the `CONFIG` constants and the inline literals.
- `Entities`: entity records and generators.
- `Rooms`: the room record and its consistency predicate `RoomOk`.
- `RoomCode`: room-code generation.
- `Registry`: the server, its messages and the sweep.
- `Lifecycle`: the create-room, join-room, start-game, disconnect and tick handlers.
- `Actions`: the player-update, player-action and request-treat handlers.
- `Simulation`: the tick.
- `Invariants`: every handler and the tick preserve `RoomOk`.
- `Sessions`: every handler keeps each connection bound to a room that holds its entry, and keeps every server settled: well-formed players objects, each room's host among its players, and no `lastActivity` stamp. This holds even where `RoomOk` is lost.
- `Scenarios`: whole-protocol runs from an empty server.

`RoomOk` means:

- the players object is well formed;
- the host is a member and the only player flagged `isHost`;
- each entry is stored under its own id;
- there are at most 12 treats;
- a live doge has time to live left;
- every deadline is set while playing;
- an active weather or frenzy has its deadline;
- `lastActivity` is unset.

The model follows the code as written, including these behaviours:

- The room-code alphabet literal has 32 symbols, not 33.
- The capture test scans every player in key order and eats the first one
  within 51 units. It does not test only the chased player
  (`Simulation.CaptureIsNotTheChase`).
- player-action and player-update do not require the room to be playing. A
  late `game-end` still ends the room.
- start-game is not gated on the game state. It re-seeds treats, roombas and
  lasers but keeps power-ups, doge, weather and winner.
- When an eating doge finishes its meal, it moves with its old velocity in
  that same tick.
- A collect-treat carrying a score from a connection with no player entry
  would throw after the treat is removed. No bound connection lacks its
  entry, so this never happens (`Sessions.ActionNeverThrows`).
- A host alone in its room that is not playing, that sends join-room for its
  own room, is re-entered with `isHost = false`
  (`Invariants.HostRejoinClearsHostFlag`). With a guest present the join is
  refused as full.
- No code ever assigns `lastActivity`, so the stale-room sweep never deletes
  anything (`Registry.SweepIsVacuous`, `Sessions.SweepKeepsSettled`). This
  holds in every reachable state, including after a host re-join.

## Model

| member | source | states |
|---|---|---|
| Roster.Put | index.js:167-174 | assigning a key keeps the object well formed, stores the value, leaves other keys alone, appends a new key at the end and keeps an existing key's place |
| Roster.Remove | index.js:330 | `delete` drops exactly that key, keeps the others' values, and keeps the object well formed |
| Roster.RemoveSplices | index.js:330 | `delete` splices the key out of its place; the keys before and after it keep their order |
| Roster.RemoveAbsent | index.js:330 | deleting an absent key leaves the key order unchanged |
| Roster.FirstAfterRemove | index.js:343 | after a delete, `Object.keys(...)[0]` is the second key if the first was deleted, and the first key otherwise |
| Roster.PutThenRemove | index.js:330 | deleting a key that was just inserted gives back the original object, order included |
| Roster.RemoveSize | index.js:337 | deleting a present key lowers `Object.keys(...).length` by one, and deleting an absent key changes nothing |
| Roster.SizeIsCardinality | index.js:156 | the key count equals the number of entries |
| Roster.Values | index.js:593-594 | `for (id in players)` visits one value per key, in key order |
| Seqs.Filter | index.js:273 | `filter` keeps exactly the elements passing the test and never grows |
| Actions.WithoutId | index.js:273 | removing by id keeps exactly the items whose id differs |
| Actions.WithoutAbsentId | index.js:273 | removing an id that no item carries changes nothing, for any sequence |
| Actions.WithoutIdCount | index.js:273 | removing an id that exactly one item carries splices out exactly that item, so the list is one shorter; duplicates of other items are kept |
| Actions.WithoutIdAppend | index.js:273 | removal by id commutes with concatenation, so survivors keep their order |
| RoomCode.Spell | index.js:356-360 | six draws spell a 6-character code over the 32-symbol alphabet, character by character |
| RoomCode.GenerateRoomCode | index.js:355-365 | the result is the first attempted code not in use; it is a well-formed code; there is no result exactly when every attempt collides |
| Rooms.Decimal | index.js:117 | the number in a default name is a non-empty string of digits |
| Rooms.NewRoom | index.js:89-127 | a new room holds exactly its creator, as host; it is waiting with empty collections, no doge or weather, a resting frenzy, default settings and no deadlines; it is consistent exactly when the creator is flagged host |
| Entities.Place | index.js:394 | `Math.random() * span + low` lies in [low, low + span] |
| Entities.SpawnTreat | index.js:387-399 | a treat is at rest inside the padded field, below the 40-pixel top band |
| Entities.SpawnRoomba | index.js:401-412 | a roomba starts inside [60, w-60] × [80, h-70] with each velocity component in [-1.4, 1.4) |
| Entities.SpawnLaser | index.js:414-427 | a laser's phase is in [0, 120) and its speed in [2.8, 4.2) |
| Entities.SpawnDoge | index.js:429-444 | a doge enters 60 pixels outside the left or right edge, heading inward horizontally at speed 2 to 2.5, with 15000 ms to live and no meal |
| Entities.SpawnPowerUp | index.js:446-461 | a power-up is inside the field padded by 16 and has the drawn kind |
| Lifecycle.CreateRoom | index.js:84-137 | create-room stores one new room under a fresh well-formed code, with the creator as sole player and host, named `Player 1` by default; the room is waiting with empty collections, no doge or weather, a resting frenzy, no winner, default settings and no deadlines; it binds the connection, leaves other rooms alone, and answers `room-created` to the sender |
| Lifecycle.JoinRoomAsWritten | index.js:144-156 | join-room as written crashes the process exactly when the code is not a room but an inherited `Object.prototype` name; otherwise it is `JoinRoom` |
| Lifecycle.InheritedCodeCrashes | index.js:144-156 | a join-room for room `constructor` ends the process as written, where the intended answer is `Room not found` |
| Lifecycle.RoomCodesAreNotInherited | index.js:355-360 | no generated room code is an inherited name |
| Lifecycle.JoinRoom | index.js:140-193 | join-room (reading `rooms` by own keys) refuses a missing room, then a playing room, then a room with 2 players, in that order, each time with the exact message and no change; otherwise it adds a non-host `Player n` default entry at the end, binds the connection, and sends `player-joined` to the room and `room-joined` (isHost iff the joiner is the host) to the sender |
| Lifecycle.StartGame | index.js:196-225 | only the host of an existing room starts it, whatever its state; the room gets playing state, 6 treats, 2 roombas and 5 lasers (each the generator's output for its draw), the four deadlines and a resting frenzy; everything else, including players, power-ups, doge, weather, winner and settings, is kept; the room hears `game-started` |
| Lifecycle.Disconnect | index.js:324-351 | the connection's entry leaves its room and `player-left` goes to the others; an emptied room is deleted; a departing host hands over to the first remaining key, which is flagged host and announced with `new-host`; every other remaining entry is unchanged; other rooms are untouched |
| Lifecycle.Remaining | index.js:341-347 | what a departure leaves behind: the remaining keys in order, each entry unchanged except that the heir is flagged host when the host left, and nothing else in the room changed |
| Lifecycle.TickRoom | index.js:479-501 | a tick of a missing or non-playing room does nothing; otherwise the room is stepped and a snapshot goes to the whole room |
| Registry.RoomOf | index.js:197-198 | a handler acts on the connection's room exactly when it is set and still exists |
| Registry.SweepStale | index.js:716-729 | the sweep keeps exactly the rooms that are not stale, unchanged |
| Registry.SweepIsVacuous | index.js:720 | the sweep removes nothing from a server whose rooms carry no `lastActivity` stamp |
| Actions.PlayerUpdate | index.js:228-250 | player-update overwrites only the given position and score of the sender's own entry, changes nothing else, and always relays to the rest of the room |
| Actions.ApplyAction | index.js:263-305 | meow only relays; collect-treat removes the treat by id and sets the sender's score, leaving every other entry alone (or throws when the sender has no entry); power-up removes by id; game-end with a winner ends the room; an action is relayed exactly when its id or winner is truthy and it did not throw |
| Actions.PlayerAction | index.js:253-306 | player-action applies the action to the sender's room in any game state and relays it to the others exactly when it took effect |
| Actions.RequestTreat | index.js:309-321 | request-treat adds one treat and announces it only in a playing room below 6 treats, and otherwise does nothing |
| Simulation.DriftTreat | index.js:518-536 | a treat keeps its id, and a resting treat is untouched |
| Simulation.DriftTreats | index.js:518-536 | each treat is replaced by its own drift step, in place, with the count, ids and resting treats kept |
| Simulation.TreatTimer | index.js:539-543 | one treat, the generator's output for its draw, is appended, and the timer re-armed 1600 ms ahead, exactly when the timer is due and fewer than 6 treats exist; otherwise nothing changes |
| Simulation.BounceRoomba | index.js:546-553 | a roomba advances by its velocity, and a moving component reverses exactly when the new position leaves its band |
| Simulation.BounceRoombas | index.js:546-553 | every roomba bounces, in order |
| Simulation.StepLaser | index.js:556-570 | the phase advances by one; the target changes only on multiples of 120, when it is redrawn; the laser homes on its target at its speed |
| Simulation.StepLasers | index.js:556-570 | every laser steps with its own retarget draw |
| Simulation.DogeTimer | index.js:573-576 | a doge spawns, and the timer is re-armed 9000 ms ahead, exactly when none is present and the timer is due |
| Simulation.NearestFrom | index.js:589-605 | the scan returns a player no farther than any other, and strictly nearer than every earlier one |
| Simulation.Nearest | index.js:589-605 | the chased player is the first nearest in key order; there is none only when the room is empty |
| Simulation.FirstWithinFrom | index.js:622-642 | the capture scan returns the first player in reach at or after a position, and none only when nobody there is in reach |
| Simulation.FirstWithin | index.js:622-642 | the captured player is the first one in key order within 51 units; no capture means nobody is in reach |
| Simulation.CaptureIsNotTheChase | index.js:593-642 | with the first player in reach and the second nearer, the doge chases the second and eats the first |
| Simulation.Chase | index.js:588-644 | a hungry doge steers toward the first nearest player; if anybody is in reach it starts eating the first such player now and records a respawn point; its position and time to live are unchanged |
| Simulation.Advance | index.js:578-650 | an eating doge stays frozen; once its 1000 ms meal is over it is released and moves by its old velocity; a hungry doge takes the chase's velocity, meal and respawn point, stays put on a capture and otherwise moves by the new velocity |
| Simulation.DogeStep | index.js:578-660 | the doge loses 50 ms of life and vanishes exactly when its life runs out or it leaves the 80-pixel envelope; it is frozen while eating; it is released after 1000 ms and moves that tick; while hungry its velocity, meal and respawn point are exactly the chase's, and it moves by that velocity; while eating and on release it keeps its old velocity and respawn point; a hungry doge with anyone in reach either captures or vanishes |
| Simulation.PowerUpRoll | index.js:663-665 | a power-up is added exactly when the roll succeeds and fewer than 3 exist, and otherwise nothing changes |
| Simulation.WeatherStep | index.js:668-675 | weather starts with 8000 ms duration and the next event 13000 ms ahead when due; it clears once `now` reaches the deadline less the 5000 ms cooldown, and nothing else changes, the next event included; afterwards active weather always lies before that point |
| Simulation.CeilSeconds | index.js:679 | the countdown is the ceiling of the remaining milliseconds in seconds |
| Simulation.TopUpTreats | index.js:693-695 | the burst appends min(3, 12 − count) treats, none once 12 are present, and keeps the existing ones first; each appended treat is the generator's output for its own draw |
| Simulation.BurstPowerUps | index.js:687-689 | the burst creates exactly three power-ups, each the generator's output for its own draw |
| Simulation.SauceStep | index.js:678-703 | while at rest the countdown is the ceiling of the seconds left (NaN before start); the frenzy starts exactly when due, appending the three burst power-ups, the treat top-up and a doge only on a successful roll with none present, and changing nothing else; it ends 8000 ms after its deadline and re-arms 30000 ms ahead, changing only the `active` flag and the deadline |
| Simulation.MoveEntities | index.js:518-570 | the movement phase touches only treats, roombas, lasers and the treat timer, and keeps the frenzy treat ceiling |
| Simulation.DogePhase | index.js:573-660 | the doge phase touches only the doge and its timer, and a surviving doge has life left |
| Simulation.UpdateGameState | index.js:508-704 | a tick changes only entities, weather, frenzy and deadlines, never players, host, settings or game state |
| Simulation.TickKeepsWorld | index.js:508-704 | a tick keeps the treat ceiling, live doge, deadlines and weather invariants, and an active weather ends before its cooldown starts |
| Invariants.CreateRoomKeepsOk | index.js:84-137 | create-room keeps every room consistent |
| Invariants.AddGuestOk | index.js:155-174 | adding a non-host to a one-player consistent room keeps it consistent, and the joiner was not already there |
| Invariants.JoinRoomKeepsOk | index.js:140-193 | join-room by anyone other than the room's own host keeps every room consistent |
| Invariants.HostRejoinClearsHostFlag | index.js:167-174 | a lone host re-joining its waiting room is left with nobody flagged host |
| Invariants.StartGameKeepsOk | index.js:196-225 | start-game keeps every room consistent |
| Invariants.RemainingOk | index.js:341-347 | what a departure leaves of a consistent room is consistent, with the new host a member |
| Invariants.DisconnectKeepsOk | index.js:324-351 | disconnect keeps every room consistent; a surviving room's host is one of its players |
| Invariants.TickRoomKeepsOk | index.js:479-501 | ticking a room keeps every room consistent |
| Invariants.SweepKeepsOk | index.js:716-729 | the sweep keeps every room consistent |
| Invariants.PlayerUpdateKeepsOk | index.js:228-250 | player-update keeps every room consistent |
| Invariants.ApplyActionOk | index.js:263-305 | no player action breaks a room's consistency |
| Invariants.PlayerActionKeepsOk | index.js:253-306 | player-action keeps every room consistent |
| Invariants.RequestTreatKeepsOk | index.js:309-321 | request-treat keeps every room consistent |
| Invariants.JoinThenLeave | index.js:324-347 | a new connection that joins a waiting room and disconnects leaves the server exactly as before |
| Sessions.CreateRoomKeepsBound | index.js:84-137 | create-room keeps every connection bound to an existing room that holds its entry |
| Sessions.JoinRoomKeepsBound | index.js:140-193 | join-room keeps every connection bound |
| Sessions.StartGameKeepsBound | index.js:196-225 | start-game keeps every connection bound |
| Sessions.DisconnectKeepsBound | index.js:324-351 | in a settled server, disconnect keeps every other connection bound; a room that another connection is bound to is never deleted |
| Sessions.TickRoomKeepsBound | index.js:479-501 | a tick keeps every connection bound |
| Sessions.PlayerUpdateKeepsBound | index.js:228-250 | player-update keeps every connection bound |
| Sessions.PlayerActionKeepsBound | index.js:253-306 | player-action keeps every connection bound |
| Sessions.RequestTreatKeepsBound | index.js:309-321 | request-treat keeps every connection bound |
| Sessions.SweepKeepsBound | index.js:716-729 | the sweep keeps every connection bound in any server without `lastActivity` stamps |
| Sessions.ActionNeverThrows | index.js:276-278 | a bound sender of collect-treat with a score always has its entry, so the unchecked score write never throws |
| Sessions.NoServerSettled | index.js:36 | the empty server is settled and bound |
| Sessions.CreateRoomKeepsSettled | index.js:84-137 | create-room keeps every players object well formed and every host a player, and adds no `lastActivity` stamp |
| Sessions.JoinRoomKeepsSettled | index.js:140-193 | join-room keeps the server settled for every joiner, the room's own host included |
| Sessions.StartGameKeepsSettled | index.js:196-225 | start-game keeps the server settled |
| Sessions.DisconnectKeepsSettled | index.js:324-351 | disconnect keeps the server settled: the room a departing host leaves behind has its heir as host and among its players |
| Sessions.TickRoomKeepsSettled | index.js:479-501 | a tick keeps the server settled |
| Sessions.PlayerUpdateKeepsSettled | index.js:228-250 | player-update keeps the server settled |
| Sessions.PlayerActionKeepsSettled | index.js:253-306 | player-action keeps the server settled |
| Sessions.RequestTreatKeepsSettled | index.js:309-321 | request-treat keeps the server settled |
| Sessions.SweepKeepsSettled | index.js:716-729 | the sweep of a settled server changes nothing |
| Sessions.HostRejoinStaysSettled | index.js:140-193 | create-room followed by the creator's own join-room leaves a settled, bound server whose room is no longer `RoomOk` |
| Scenarios.TwoPlayerRoom | index.js:140-193 | from an empty server, create then join gives a consistent room holding the creator as host and then `Player 2` |
| Scenarios.ThirdPlayerIsTurnedAway | index.js:155-160 | a third join of a full room is answered `Room is full (2 player maximum)` and changes nothing |
| Scenarios.HostHandsOver | index.js:341-347 | when a host leaves a room of two, the guest becomes the flagged host and the room hears `player-left` then `new-host` |
| Scenarios.HostLeavesTwoPlayerRoom | index.js:341-347 | from an empty server, create, join and host disconnect make the joiner host and announce it |
| Scenarios.LastPlayerLeaves | index.js:336-340 | the last player leaving deletes the room, and a later join answers `Room not found` |

## Left out

- HTTP routes, CORS, `server.listen` and socket.io channel membership (`socket.join`): transport only. Audiences are kept as values on each message.
- The legacy `join-game` handler and legacy `player-action` relay (index.js:61-80): they touch no room state. The legacy relay does also fire on every `player-action`, before the room handler.
- `console.log` and the self-ping keep-alive: output and network only.
- `setInterval` itself: `TickRoom` is one firing of a room's interval. A repeated start-game on a playing room starts a second interval, so the room then ticks twice per 50 ms. The model does not represent how many intervals run, and it does not model the interval-handle fields.
- Message payloads beyond their identifying fields: the `game-started` snapshot, the spread data of `player-updated` and `player-action`, and the `room-joined` player list and settings. The `game-started` snapshot is a fresh initial state, not the room's own power-ups, doge or weather.
- `lastGameStateUpdate`: written once and never read.
- Floating point: positions, velocities and distances are exact reals. Squared distances stand in for `Math.hypot`. Treat damping and wall bounce, laser homing and the doge's steering direction are supplied as functions in `Physics`.
- Simulation.DriftTreat: states only that ids are kept and resting treats are untouched, because the motion itself is floating-point and supplied by `Physics.drift`.
- Simulation.StepLaser: states the homing step only as a call to `Physics.home`, because it normalises by a floating-point `Math.hypot`.
- Rooms.Decimal: states only that the spelling is a non-empty run of digits, not which number it denotes, because only its use in default names matters here.
- Actions.ApplyAction: on the collect-treat path that throws, the model keeps serving with the treat removed. The real process would exit on the uncaught TypeError. `Sessions.ActionNeverThrows` shows that no bound connection reaches this path.
- The generators' `settings?.canvasWidth || 1200` fallbacks: the model passes the room's settings through as they are. Every room keeps the default 1200 × 800 settings, because no handler changes settings.
- Lifecycle.StartGame: one `now` stands for the four separate `Date.now()` reads at index.js:209-212. Those reads can differ by a millisecond or so.
- Random ids (`Math.random().toString(36)`), coordinates, kinds and rolls are injected draws. The generators' bounds hold for draws in [0, 1).
- RoomCode.GenerateRoomCode: the source retries without bound. The model takes a finite list of attempted draws, and create-room requires one of them to be free.
- The `!player.position` skip in the doge's scans: every entry gets a position on creation, and player-update writes only a present one.
- Actions.PlayerAction: a `player-action` with no payload (`undefined` or `null`) throws at index.js:72. There the legacy relay reads `data.roomId` for any connection, bound or not, before the room handler runs. Nothing catches the error, so the process ends. The model takes the action as a value and does not represent a missing payload.
- Actions.PlayerUpdate: a `player-update` with no payload throws at index.js:235 (`data.position`) when the sender has an entry in its room. Nothing catches the error, so the process ends. The model takes position and score as optional values and does not represent a missing payload.
- `skinIndex || 0` on non-numeric or NaN values, `data.score` of `null`, and a missing `data` object in join-room: the model takes the skin and score as optional integers.

## Findings

| source | as written | input that shows it | evidently intended | confidence | as-written member | corrected member |
|---|---|---|---|---|---|---|
| index.js:144-156 | `!rooms[roomCode]` also finds names inherited from `Object.prototype`. Line 156 then calls `Object.keys(undefined)` and throws. Nothing catches it, so the server process ends | join-room with roomCode `constructor` (or `__proto__`, `toString`, ...) | answer `Room not found` for any code that is not an own key of `rooms` | high; not executed | Lifecycle.JoinRoomAsWritten | Lifecycle.JoinRoom |

=== FILE: actions.dfy ===
/** Gameplay messages from a player: player-update, player-action and
    request-treat (index.js:228-321). Every handler first looks up the
    sender's room and does nothing when there is none. */
module Actions {
  import opened Wrappers
  import opened Seqs
  import opened Roster
  import opened Entities
  import opened Rooms
  import opened Registry
  import Config

  /** The `action` field of a player-action message and the fields each kind reads. */
  datatype Action =
    | Meow
    | CollectTreat(treatId: Option<string>, score: Option<int>)
    | CollectPowerUp(powerUpId: Option<string>)
    | GameEnd(winner: Option<string>)
    | Unknown

  /** A JavaScript-truthy string: present and non-empty. */
  predicate Truthy(v: Option<string>) {
    v.Some? && v.value != ""
  }

  function TreatId(t: Treat): string { t.id }
  function PowerUpId(p: PowerUp): string { p.id }

  /** The filter test `x => x.id !== id`. */
  function IdIsNot<T>(idOf: T -> string, id: string): T -> bool {
    x => idOf(x) != id
  }

  /** `items.filter(x => x.id !== id)`. */
  function WithoutId<T(==,!new)>(items: seq<T>, idOf: T -> string, id: string): (r: seq<T>)
    ensures forall x :: x in r <==> x in items && idOf(x) != id
    ensures |r| <= |items|
  {
    Filter(items, IdIsNot(idOf, id))
  }

  /** Removing an id no item carries changes nothing. */
  lemma WithoutAbsentId<T(!new)>(items: seq<T>, idOf: T -> string, id: string)
    requires forall x :: x in items ==> idOf(x) != id
    ensures WithoutId(items, idOf, id) == items
  {
    FilterKeepsAll(items, IdIsNot(idOf, id));
  }

  /** Removing an id that exactly one item carries drops exactly that item;
      the others keep their order, duplicates included. */
  lemma WithoutIdCount<T(!new)>(items: seq<T>, idOf: T -> string, id: string, i: nat)
    requires i < |items| && idOf(items[i]) == id
    requires forall j :: 0 <= j < |items| && j != i ==> idOf(items[j]) != id
    ensures WithoutId(items, idOf, id) == items[..i] + items[i + 1..]
    ensures |WithoutId(items, idOf, id)| == |items| - 1
  {
    FilterDropsAt(items, i, IdIsNot(idOf, id));
  }

  /** Collection commutes with concatenation, so the kept items stay in order. */
  lemma WithoutIdAppend<T(!new)>(a: seq<T>, b: seq<T>, idOf: T -> string, id: string)
    ensures WithoutId(a + b, idOf, id) == WithoutId(a, idOf, id) + WithoutId(b, idOf, id)
  {
    FilterAppend(a, b, IdIsNot(idOf, id));
  }

  // ---------------------------------------------------------------- player-update

  /** player-update: overwrite only the given fields of the sender's entry
      (when it has one), and relay to the rest of the room in any case. */
  function PlayerUpdate(s: Server, sid: PlayerId, pos: Option<Vec>, score: Option<int>): (rep: Reply)
    ensures RoomOf(s, sid).None? ==> rep == Reply(s, [])
    ensures RoomOf(s, sid).Some? ==>
              var code := s.sessions[sid];
              var room := s.rooms[code];
              && rep.server.sessions == s.sessions
              && code in rep.server.rooms
              && rep.server.rooms == s.rooms[code := rep.server.rooms[code]]
              && rep.server.rooms[code] == room.(players := rep.server.rooms[code].players)
              && rep.server.rooms[code].players.order == room.players.order
              && rep.out == [Emit(Others(code), PlayerUpdated(sid))]
              && (sid !in room.players.entries ==> rep.server.rooms[code] == room)
              && (sid in room.players.entries ==>
                    var before := room.players.entries[sid];
                    var after := rep.server.rooms[code].players.entries;
                    && after.Keys == room.players.entries.Keys
                    && (forall k :: k in after && k != sid ==> after[k] == room.players.entries[k])
                    && after[sid].pos == (if pos.Some? then pos.value else before.pos)
                    && after[sid].score == (if score.Some? then score.value else before.score)
                    && after[sid] == before.(pos := after[sid].pos, score := after[sid].score))
  {
    match RoomOf(s, sid)
    case None => Reply(s, [])
    case Some(code) =>
      var room := s.rooms[code];
      var players :=
        if sid in room.players.entries then
          var p := room.players.entries[sid];
          Put(room.players, sid, p.(pos := pos.GetOr(p.pos), score := score.GetOr(p.score)))
        else room.players;
      Reply(s.(rooms := s.rooms[code := room.(players := players)]), [Emit(Others(code), PlayerUpdated(sid))])
  }

  // ---------------------------------------------------------------- player-action

  /** collect-treat with a score writes the sender's entry without checking
      that it exists: when it is missing the handler throws after the treat
      has been removed, so nothing is relayed. */
  predicate Throws(room: Room, sid: PlayerId, a: Action) {
    a.CollectTreat? && Truthy(a.treatId) && a.score.Some? && sid !in room.players.entries
  }

  /** The effect of one action on the sender's room, and whether it is relayed. */
  function ApplyAction(room: Room, sid: PlayerId, a: Action): (res: (Room, bool))
    ensures res.1 <==> (a.Meow? || (a.CollectTreat? && Truthy(a.treatId)) ||
                        (a.CollectPowerUp? && Truthy(a.powerUpId)) || (a.GameEnd? && Truthy(a.winner)))
                       && !Throws(room, sid, a)
    ensures !res.1 && !Throws(room, sid, a) ==> res.0 == room
    ensures a.CollectTreat? && Truthy(a.treatId) ==>
              && res.0.treats == WithoutId(room.treats, TreatId, a.treatId.value)
              && res.0.players.order == room.players.order
              && res.0.players.entries.Keys == room.players.entries.Keys
              && (a.score.Some? && sid in room.players.entries ==>
                    res.0.players.entries == room.players.entries[sid := room.players.entries[sid].(score := a.score.value)])
              && (a.score.None? || sid !in room.players.entries ==> res.0.players == room.players)
              && res.0 == room.(treats := res.0.treats, players := res.0.players)
    ensures a.CollectPowerUp? && Truthy(a.powerUpId) ==>
              res.0 == room.(powerUps := WithoutId(room.powerUps, PowerUpId, a.powerUpId.value))
    ensures a.GameEnd? && Truthy(a.winner) ==> res.0 == room.(gameState := Ended, winner := a.winner)
    ensures a.Meow? ==> res.0 == room
  {
    match a
    case Meow => (room, true)
    case CollectTreat(id, score) =>
      if Truthy(id) then
        var treats := WithoutId(room.treats, TreatId, id.value);
        if score.Some? && sid !in room.players.entries then (room.(treats := treats), false)
        else
          var players :=
            if score.Some? then Put(room.players, sid, room.players.entries[sid].(score := score.value))
            else room.players;
          (room.(treats := treats, players := players), true)
      else (room, false)
    case CollectPowerUp(id) =>
      if Truthy(id) then (room.(powerUps := WithoutId(room.powerUps, PowerUpId, id.value)), true)
      else (room, false)
    case GameEnd(winner) =>
      if Truthy(winner) then (room.(gameState := Ended, winner := winner), true)
      else (room, false)
    case Unknown => (room, false)
  }

  /** player-action: apply the action to the sender's room (whatever its game
      state) and relay it to the rest of the room when it took effect. */
  function PlayerAction(s: Server, sid: PlayerId, a: Action): (rep: Reply)
    ensures RoomOf(s, sid).None? ==> rep == Reply(s, [])
    ensures RoomOf(s, sid).Some? ==>
              var code := s.sessions[sid];
              var res := ApplyAction(s.rooms[code], sid, a);
              && rep.server == s.(rooms := s.rooms[code := res.0])
              && rep.out == (if res.1 then [Emit(Others(code), ActionRelayed(sid))] else [])
  {
    match RoomOf(s, sid)
    case None => Reply(s, [])
    case Some(code) =>
      var res := ApplyAction(s.rooms[code], sid, a);
      Reply(s.(rooms := s.rooms[code := res.0]), if res.1 then [Emit(Others(code), ActionRelayed(sid))] else [])
  }

  // ---------------------------------------------------------------- request-treat

  /** request-treat: only in a playing room and only below the steady-state
      cap; the new treat is announced to the whole room. */
  function RequestTreat(s: Server, sid: PlayerId, seed: TreatSeed): (rep: Reply)
    ensures RoomOf(s, sid).None? ==> rep == Reply(s, [])
    ensures RoomOf(s, sid).Some? ==>
              var code := s.sessions[sid];
              var room := s.rooms[code];
              if room.gameState == Playing && |room.treats| < Config.TreatCap then
                var t := SpawnTreat(room.settings.canvasWidth, room.settings.canvasHeight, seed);
                && rep.server == s.(rooms := s.rooms[code := room.(treats := room.treats + [t])])
                && |room.treats| + 1 <= Config.TreatCap
                && rep.out == [Emit(Everyone(code), TreatSpawned(t))]
              else rep == Reply(s, [])
  {
    match RoomOf(s, sid)
    case None => Reply(s, [])
    case Some(code) =>
      var room := s.rooms[code];
      if room.gameState != Playing || |room.treats| >= Config.TreatCap then Reply(s, [])
      else
        var t := SpawnTreat(room.settings.canvasWidth, room.settings.canvasHeight, seed);
        Reply(s.(rooms := s.rooms[code := room.(treats := room.treats + [t])]), [Emit(Everyone(code), TreatSpawned(t))])
  }
}

=== FILE: config.dfy ===
/** The server's tuning constants (the `CONFIG` object, index.js:39-53) and
    the literals the handlers and the tick use inline. Times are milliseconds. */
module Config {
  const TreatRespawnMs := 1600
  const DogeEveryMs := 9000
  const DogeEatTimeMs := 1000
  const RoombaCount := 2
  const LaserCount := 5
  const WeatherDuration := 8000
  const WeatherCooldown := 5000
  const SecretSauceInterval := 30000
  const SecretSauceDuration := 8000
  const BoundsPadding := 8
  const MaxPowerUps := 3

  /** One tick of the per-room loop (20 Hz). */
  const TickMs := 50
  /** Steady-state treat cap (request-treat and the respawn timer). */
  const TreatCap := 6
  /** Treat ceiling for the frenzy burst. */
  const FrenzyTreatCap := 12
  /** Power-ups and treats added by one frenzy burst. */
  const FrenzyBurst := 3
  /** Hard player cap checked by join-room. */
  const MaxPlayers := 2
  /** Player radius 25 plus doge radius 26. */
  const CaptureRadius := 51
  const DogeTtl := 15000
  /** The doge despawns this far beyond any canvas edge. */
  const DogeEnvelope := 80
  /** A new doge appears this far off the left or right edge. */
  const DogeSpawnOffset := 60
  /** Delay before the first weather opportunity after start-game. */
  const FirstWeatherDelayMs := 5000
  const InitialCountdown := 30
  /** Frenzy-mode doge speed-up factor. */
  const FrenzySpeedFactor: real := 1.5
  /** A laser picks a new target every this many of its own ticks. */
  const RetargetPeriod := 120
  /** Rooms idle longer than three hours are swept. */
  const StaleAfterMs := 10800000

  const DefaultTargetScore := 30
  const DefaultWidth := 1200
  const DefaultHeight := 800
}

=== FILE: entities.dfy ===
/** The world objects of a room and the generators that create them
    (index.js:387-471). Randomness enters as explicit draws: a "unit" draw is
    one value of `Math.random()`, so it lies in [0, 1); fresh ids are given. */
module Entities {
  import opened Wrappers
  import Config

  type PlayerId = string

  datatype Vec = Vec(x: real, y: real) {
    function Plus(v: Vec): Vec {
      Vec(x + v.x, y + v.y)
    }

    function Scale(k: real): Vec {
      Vec(k * x, k * y)
    }
  }

  const Origin := Vec(0.0, 0.0)

  /** Squared Euclidean distance; comparing it is equivalent to comparing
      `Math.hypot` distances, because squaring is monotone on non-negatives. */
  function DistSq(a: Vec, b: Vec): real {
    (a.x - b.x) * (a.x - b.x) + (a.y - b.y) * (a.y - b.y)
  }

  /** A value of `Math.random()`. */
  predicate Unit(u: real) {
    0.0 <= u < 1.0
  }

  /** `u * span + low` for a unit draw `u`: the generators' placement idiom. */
  function Place(u: real, span: int, low: int): (r: real)
    ensures Unit(u) && span >= 0 ==> low as real <= r <= (low + span) as real
  {
    ScaleWithin(u, span as real);
    u * span as real + low as real
  }

  lemma ScaleWithin(u: real, s: real)
    ensures 0.0 <= u <= 1.0 && s >= 0.0 ==> 0.0 <= u * s <= s
  {
  }

  datatype Player = Player(id: PlayerId, name: string, skin: int, pos: Vec, score: int, isHost: bool)

  datatype Treat = Treat(id: string, pos: Vec, vel: Vec)

  datatype Roomba = Roomba(id: string, pos: Vec, vel: Vec)

  /** `t` counts the laser's own ticks; `target` is the point it homes on. */
  datatype Laser = Laser(id: string, pos: Vec, t: int, target: Vec, speed: real)

  /** The capture record: who is being eaten and since when (`eating` and
      `eatingStartTime` together, so one cannot be set without the other). */
  datatype Meal = Meal(victim: PlayerId, since: int)

  /** The antagonist. `respawn` is the point precomputed for the eaten player;
      like the source's `respawnX/Y` it stays set after the meal ends. */
  datatype Doge = Doge(id: string, pos: Vec, vel: Vec, ttl: int, meal: Option<Meal>, respawn: Option<Vec>)

  datatype PowerUpKind = SpeedBoost | Shield | GiantMode | SuperMeow | TreatMagnet

  datatype PowerUp = PowerUp(id: string, pos: Vec, kind: PowerUpKind)

  datatype WeatherKind = NightMode | SlipperyFloor | Tornado | SuperSpeed

  datatype Weather = Weather(kind: WeatherKind, duration: int)

  /** Frenzy mode. `countdown` is `None` while the countdown is `NaN`
      (no activation scheduled yet). */
  datatype SecretSauce = SecretSauce(active: bool, countdown: Option<int>)

  const SauceAtRest := SecretSauce(false, Some(Config.InitialCountdown))

  // Random draws consumed by the generators.
  datatype TreatSeed = TreatSeed(id: string, ux: real, uy: real)
  datatype RoombaSeed = RoombaSeed(id: string, ux: real, uy: real, uvx: real, uvy: real)
  datatype LaserSeed = LaserSeed(id: string, ux: real, uy: real, ut: real, utx: real, uty: real, uspeed: real)
  /** `left` is the outcome of `Math.random() < 0.5`. */
  datatype DogeSeed = DogeSeed(id: string, left: bool, uy: real, uspeed: real)
  datatype PowerUpSeed = PowerUpSeed(id: string, ux: real, uy: real, kind: PowerUpKind)

  /** generateTreat: at rest, inside the padded canvas below the 40px header. */
  function SpawnTreat(w: int, h: int, s: TreatSeed): (t: Treat)
    ensures t.id == s.id && t.vel == Origin
    ensures Unit(s.ux) && Unit(s.uy) && w >= 2 * Config.BoundsPadding && h >= 2 * Config.BoundsPadding + 40 ==>
      && Config.BoundsPadding as real <= t.pos.x <= (w - Config.BoundsPadding) as real
      && (Config.BoundsPadding + 40) as real <= t.pos.y <= (h - Config.BoundsPadding) as real
  {
    var pad := Config.BoundsPadding;
    Treat(s.id, Vec(Place(s.ux, w - 2 * pad, pad), Place(s.uy, h - 2 * pad - 40, pad + 40)), Origin)
  }

  /** generateRoomba: each velocity component is `u * 2.8 - 1.4`. */
  function SpawnRoomba(w: int, h: int, s: RoombaSeed): (r: Roomba)
    ensures r.id == s.id
    ensures Unit(s.uvx) && Unit(s.uvy) ==> -1.4 <= r.vel.x < 1.4 && -1.4 <= r.vel.y < 1.4
    ensures Unit(s.ux) && Unit(s.uy) && w >= 120 && h >= 150 ==>
      60.0 <= r.pos.x <= (w - 60) as real && 80.0 <= r.pos.y <= (h - 70) as real
  {
    Roomba(s.id, Vec(Place(s.ux, w - 120, 60), Place(s.uy, h - 150, 80)),
           Vec(s.uvx * 2.8 - 1.4, s.uvy * 2.8 - 1.4))
  }

  /** generateLaser: phase `floor(u * 120)`, speed `u * 1.4 + 2.8`. */
  function SpawnLaser(w: int, h: int, s: LaserSeed): (l: Laser)
    ensures l.id == s.id
    ensures Unit(s.ut) ==> 0 <= l.t < Config.RetargetPeriod
    ensures Unit(s.uspeed) ==> 2.8 <= l.speed < 4.2
  {
    Laser(s.id, Vec(Place(s.ux, w - 80, 40), Place(s.uy, h - 130, 90)),
          (s.ut * Config.RetargetPeriod as real).Floor,
          LaserTarget(w, h, s.utx, s.uty), s.uspeed * 1.4 + 2.8)
  }

  /** A laser target: `u * (w - 80) + 40`, `u * (h - 80) + 40`. */
  function LaserTarget(w: int, h: int, ux: real, uy: real): Vec {
    Vec(Place(ux, w - 80, 40), Place(uy, h - 80, 40))
  }

  /** generateDoge: off the chosen side, heading inward horizontally at
      `u * 0.5 + 2.0`, with a fresh time-to-live and no meal. */
  function SpawnDoge(w: int, h: int, s: DogeSeed): (d: Doge)
    ensures d.id == s.id && d.ttl == Config.DogeTtl && d.meal.None? && d.respawn.None? && d.vel.y == 0.0
    ensures s.left ==> d.pos.x == -Config.DogeSpawnOffset as real
    ensures !s.left ==> d.pos.x == (w + Config.DogeSpawnOffset) as real
    ensures Unit(s.uspeed) ==> if s.left then 2.0 <= d.vel.x < 2.5 else -2.5 < d.vel.x <= -2.0
  {
    var speed := s.uspeed * 0.5 + 2.0;
    Doge(s.id,
         Vec(if s.left then -Config.DogeSpawnOffset as real else (w + Config.DogeSpawnOffset) as real,
             Place(s.uy, h - 180, 90)),
         Vec(if s.left then speed else -speed, 0.0),
         Config.DogeTtl, None, None)
  }

  /** generatePowerUp: inside the canvas with a doubled padding. */
  function SpawnPowerUp(w: int, h: int, s: PowerUpSeed): (p: PowerUp)
    ensures p.id == s.id && p.kind == s.kind
    ensures Unit(s.ux) && Unit(s.uy) && w >= 32 && h >= 72 ==>
      16.0 <= p.pos.x <= (w - 16) as real && 56.0 <= p.pos.y <= (h - 16) as real
  {
    var pad := 2 * Config.BoundsPadding;
    PowerUp(s.id, Vec(Place(s.ux, w - 2 * pad, pad), Place(s.uy, h - 2 * pad - 40, pad + 40)), s.kind)
  }

  /** generateWeatherEvent: the chosen effect for the configured duration. */
  function SpawnWeather(kind: WeatherKind): Weather {
    Weather(kind, Config.WeatherDuration)
  }

  /** The point a captured player respawns at: `u * (w - 200) + 100`. */
  function RespawnPoint(w: int, h: int, ux: real, uy: real): Vec {
    Vec(Place(ux, w - 200, 100), Place(uy, h - 200, 100))
  }
}

=== FILE: invariants.dfy ===
/** Every handler and every tick keeps each room consistent: one host, who is
    a member and the only player flagged `isHost`; the treat ceiling; a live
    doge; deadlines set while playing. */
module Invariants {
  import opened Wrappers
  import opened Roster
  import opened Entities
  import opened Rooms
  import opened RoomCode
  import opened Registry
  import opened Lifecycle
  import opened Actions
  import Simulation
  import Config

  lemma OkIsWellFormed(s: Server)
    requires ServerOk(s)
    ensures WellFormed(s)
  {
  }

  /** A room's player count is at least the number of distinct ids known to be in it. */
  lemma TwoMembers(r: Roster<PlayerId, Player>, a: PlayerId, b: PlayerId)
    requires Valid(r) && a in r.entries && b in r.entries && a != b
    ensures Size(r) >= 2
  {
    SizeIsCardinality(r);
    assert {a, b} <= r.entries.Keys;
    assert |{a, b}| == 2;
    CardinalityMonotone({a, b}, r.entries.Keys);
  }

  lemma CardinalityMonotone<T>(a: set<T>, b: set<T>)
    requires a <= b
    ensures |a| <= |b|
  {
    assert b == a + (b - a);
  }

  /** Replacing one room by a consistent one keeps the whole table consistent. */
  lemma ReplaceRoomOk(s: Server, code: Code, r: Room, sessions: map<PlayerId, Code>)
    requires ServerOk(s) && RoomOk(r)
    ensures ServerOk(Server(s.rooms[code := r], sessions))
  {
  }

  lemma CreateRoomKeepsOk(s: Server, sid: PlayerId, name: Option<string>, skin: Option<int>, attempts: seq<Draw>)
    requires ServerOk(s) && FreshCodeAvailable(s, attempts)
    ensures ServerOk(CreateRoom(s, sid, name, skin, attempts).server)
  {
    var rep := CreateRoom(s, sid, name, skin, attempts);
    var c := rep.out[0].msg.code;
    assert rep.server.rooms[c] == NewRoom(NewPlayer(sid, NameOr(name, 1), skin, true));
  }

  /** Adding a non-host under its own id to a room that only holds its host. */
  lemma AddGuestOk(room: Room, p: Player)
    requires RoomOk(room) && Size(room.players) < Config.MaxPlayers
    requires p.id != room.host && !p.isHost
    ensures p.id !in room.players.entries
    ensures RoomOk(room.(players := Put(room.players, p.id, p)))
  {
    if p.id in room.players.entries {
      TwoMembers(room.players, p.id, room.host);
    }
  }

  /** join-room keeps every room consistent, provided the joiner is not the
      room's own host coming back (see HostRejoinClearsHostFlag). */
  lemma JoinRoomKeepsOk(s: Server, sid: PlayerId, code: Code, name: Option<string>, skin: Option<int>)
    requires ServerOk(s)
    requires code in s.rooms ==> sid != s.rooms[code].host
    ensures ServerOk(JoinRoom(s, sid, code, name, skin).server)
  {
    var rep := JoinRoom(s, sid, code, name, skin);
    if code in s.rooms && s.rooms[code].gameState != Playing && Size(s.rooms[code].players) < Config.MaxPlayers {
      var room := s.rooms[code];
      assert RoomOk(room);
      var p := NewPlayer(sid, NameOr(name, Size(room.players) + 1), skin, false);
      AddGuestOk(room, p);
      JoinShape(s, sid, code, name, skin);
      ReplaceRoomOk(s, code, room.(players := Put(room.players, sid, p)), rep.server.sessions);
    }
  }

  /** The exception: a host who sends join-room for its own waiting room,
      while alone in it, is re-entered with `isHost = false`, so nobody is
      flagged as host any more although `host` still names it. */
  lemma HostRejoinClearsHostFlag(s: Server, code: Code, name: Option<string>, skin: Option<int>)
    requires ServerOk(s) && code in s.rooms
    requires s.rooms[code].gameState != Playing && Size(s.rooms[code].players) == 1
    ensures var room' := JoinRoom(s, s.rooms[code].host, code, name, skin).server.rooms[code];
            && room'.host == s.rooms[code].host
            && Size(room'.players) == 1
            && forall k :: k in room'.players.entries ==> !room'.players.entries[k].isHost
  {
    var room := s.rooms[code];
    assert RoomOk(room);
    var room' := JoinRoom(s, room.host, code, name, skin).server.rooms[code];
    forall k | k in room'.players.entries ensures !room'.players.entries[k].isHost {
      if k != room.host {
        TwoMembers(room.players, k, room.host);
      }
    }
  }

  lemma StartGameKeepsOk(s: Server, sid: PlayerId, now: int, draws: StartDraws)
    requires ServerOk(s)
    ensures ServerOk(StartGame(s, sid, now, draws).server)
  {
    var rep := StartGame(s, sid, now, draws);
    forall c | c in rep.server.rooms ensures RoomOk(rep.server.rooms[c]) {
      assert c in s.rooms && RoomOk(s.rooms[c]);
    }
  }

  /** What is left of a consistent room after a player leaves is consistent. */
  lemma RemainingOk(room: Room, sid: PlayerId)
    requires RoomOk(room) && Size(Remove(room.players, sid)) > 0
    ensures RoomOk(Remaining(room, sid))
  {
    var rest := Remove(room.players, sid);
    if sid == room.host {
      var heir := First(rest);
      assert heir in rest.order;
      assert Remaining(room, sid).players == Put(rest, heir, rest.entries[heir].(isHost := true));
    }
  }

  /** disconnect keeps every room consistent; in particular a surviving room's
      host is still one of its players. */
  lemma DisconnectKeepsOk(s: Server, sid: PlayerId)
    requires ServerOk(s)
    ensures WellFormed(s)
    ensures ServerOk(Disconnect(s, sid).server)
  {
    var rep := Disconnect(s, sid);
    match RoomOf(s, sid)
    case None =>
    case Some(code) =>
      var room := s.rooms[code];
      assert RoomOk(room);
      if Size(Remove(room.players, sid)) > 0 {
        RemainingOk(room, sid);
        ReplaceRoomOk(s, code, Remaining(room, sid), rep.server.sessions);
      }
  }

  lemma TickRoomKeepsOk(s: Server, code: Code, now: int, phys: Simulation.Physics, draws: Simulation.TickDraws)
    requires ServerOk(s)
    ensures ServerOk(TickRoom(s, code, now, phys, draws).server)
  {
    if code in s.rooms && s.rooms[code].gameState == Playing {
      var room := s.rooms[code];
      assert RoomOk(room);
      Simulation.TickKeepsWorld(room, now, phys, draws);
      ReplaceRoomOk(s, code, Simulation.UpdateGameState(room, now, phys, draws), s.sessions);
    }
  }

  lemma SweepKeepsOk(s: Server, now: int)
    requires ServerOk(s)
    ensures ServerOk(SweepStale(s, now))
  {
  }

  lemma PlayerUpdateKeepsOk(s: Server, sid: PlayerId, pos: Option<Vec>, score: Option<int>)
    requires ServerOk(s)
    ensures ServerOk(PlayerUpdate(s, sid, pos, score).server)
  {
    var rep := PlayerUpdate(s, sid, pos, score);
    if RoomOf(s, sid).Some? {
      var code := s.sessions[sid];
      assert RoomOk(s.rooms[code]);
      assert RoomOk(rep.server.rooms[code]);
      ReplaceRoomOk(s, code, rep.server.rooms[code], rep.server.sessions);
    }
  }

  /** An action never touches host flags, the doge, weather or the schedule. */
  lemma ApplyActionOk(room: Room, sid: PlayerId, a: Action)
    requires RoomOk(room)
    ensures RoomOk(ApplyAction(room, sid, a).0)
  {
  }

  lemma PlayerActionKeepsOk(s: Server, sid: PlayerId, a: Action)
    requires ServerOk(s)
    ensures ServerOk(PlayerAction(s, sid, a).server)
  {
    var rep := PlayerAction(s, sid, a);
    if RoomOf(s, sid).Some? {
      var code := s.sessions[sid];
      var room := s.rooms[code];
      assert RoomOk(room);
      var room' := ApplyAction(room, sid, a).0;
      ApplyActionOk(room, sid, a);
      ReplaceRoomOk(s, code, room', rep.server.sessions);
    }
  }

  lemma RequestTreatKeepsOk(s: Server, sid: PlayerId, seed: TreatSeed)
    requires ServerOk(s)
    ensures ServerOk(RequestTreat(s, sid, seed).server)
  {
    var rep := RequestTreat(s, sid, seed);
    if RoomOf(s, sid).Some? {
      var code := s.sessions[sid];
      assert RoomOk(s.rooms[code]);
      assert RoomOk(rep.server.rooms[code]);
      ReplaceRoomOk(s, code, rep.server.rooms[code], rep.server.sessions);
    }
  }

  /** A non-host leaving a room that keeps other players only loses its entry. */
  lemma GuestLeaves(t: Server, sid: PlayerId, code: Code, room: Room)
    requires WellFormed(t) && RoomOf(t, sid) == Some(code)
    requires t.rooms[code] == room.(players := t.rooms[code].players) && sid != room.host
    requires Remove(t.rooms[code].players, sid) == room.players && Size(room.players) > 0
    ensures Disconnect(t, sid).server == Server(t.rooms[code := room], t.sessions - {sid})
  {
  }

  /** What a successful join-room stores. */
  lemma JoinShape(s: Server, sid: PlayerId, code: Code, name: Option<string>, skin: Option<int>)
    requires code in s.rooms && s.rooms[code].gameState != Playing && Size(s.rooms[code].players) < Config.MaxPlayers
    ensures var room := s.rooms[code];
            var p := NewPlayer(sid, NameOr(name, Size(room.players) + 1), skin, false);
            JoinRoom(s, sid, code, name, skin).server ==
              Server(s.rooms[code := room.(players := Put(room.players, sid, p))], s.sessions[sid := code])
  {
  }

  /** A player who joins a waiting room and leaves again leaves the server
      exactly as it found it. */
  lemma JoinThenLeave(s: Server, sid: PlayerId, code: Code, name: Option<string>, skin: Option<int>)
    requires ServerOk(s) && sid !in s.sessions
    requires code in s.rooms && s.rooms[code].gameState != Playing && Size(s.rooms[code].players) < Config.MaxPlayers
    requires sid != s.rooms[code].host
    ensures var joined := JoinRoom(s, sid, code, name, skin).server;
            WellFormed(joined) && Disconnect(joined, sid).server == s
  {
    var room := s.rooms[code];
    assert RoomOk(room);
    var p := NewPlayer(sid, NameOr(name, Size(room.players) + 1), skin, false);
    AddGuestOk(room, p);
    JoinShape(s, sid, code, name, skin);
    var joined := Server(s.rooms[code := room.(players := Put(room.players, sid, p))], s.sessions[sid := code]);
    assert WellFormed(joined) by {
      JoinRoomKeepsOk(s, sid, code, name, skin);
    }
    PutThenRemove(room.players, sid, p);
    GuestLeaves(joined, sid, code, room);
    Restore(s.rooms, code, joined.rooms[code]);
    Unset(s.sessions, sid, code);
  }

  lemma Restore<K, V>(m: map<K, V>, k: K, x: V)
    requires k in m
    ensures m[k := x][k := m[k]] == m
  {
  }

  lemma Unset<K, V>(m: map<K, V>, k: K, x: V)
    requires k !in m
    ensures m[k := x] - {k} == m
  {
  }
}

=== FILE: lifecycle.dfy ===
/** The session protocol: create-room, join-room, start-game and disconnect
    (index.js:84-225, 324-351), and the per-room tick driver (index.js:479-501). */
module Lifecycle {
  import opened Wrappers
  import opened Roster
  import opened Entities
  import opened Rooms
  import opened RoomCode
  import opened Registry
  import Simulation
  import Config

  const RoomNotFound := "Room not found"
  const GameInProgress := "Game already in progress"
  const RoomFull := "Room is full (2 player maximum)"

  // ---------------------------------------------------------------- create-room

  /** Some attempt in the random stream spells a code not yet in use. */
  ghost predicate FreshCodeAvailable(s: Server, attempts: seq<Draw>) {
    exists i :: 0 <= i < |attempts| && Spell(attempts[i]) !in s.rooms
  }

  /** create-room: a fresh code, a waiting room whose only player is the
      creator, who is its host; the connection now belongs to that room. */
  function CreateRoom(s: Server, sid: PlayerId, name: Option<string>, skin: Option<int>,
                      attempts: seq<Draw>): (rep: Reply)
    requires FreshCodeAvailable(s, attempts)
    ensures |rep.out| == 1 && rep.out[0].to == Sender && rep.out[0].msg.RoomCreated?
    ensures var c := rep.out[0].msg.code;
      && rep.out[0].msg.playerId == sid
      && IsRoomCode(c) && c !in s.rooms
      && rep.server.rooms.Keys == s.rooms.Keys + {c}
      && (forall k :: k in s.rooms ==> rep.server.rooms[k] == s.rooms[k])
      && rep.server.sessions == s.sessions[sid := c]
      && rep.server.rooms[c].players.order == [sid]
      && rep.server.rooms[c].host == sid
      && sid in rep.server.rooms[c].players.entries
      && rep.server.rooms[c].players.entries[sid] == NewPlayer(sid, NameOr(name, 1), skin, true)
      && rep.server.rooms[c].gameState == Waiting
      && Fresh(rep.server.rooms[c])
  {
    var drawn := GenerateRoomCode(s.rooms.Keys, attempts);
    assert drawn.Some?;
    var code := drawn.value;
    assert IsRoomCode(code) && code !in s.rooms;
    // the players object is still empty here, so the default name is `Player 1`
    var creator := NewPlayer(sid, NameOr(name, 1), skin, true);
    var room := NewRoom(creator);
    assert room.players.order == [sid] && room.players.entries[sid] == creator;
    Reply(Server(s.rooms[code := room], s.sessions[sid := code]),
          [Emit(Sender, RoomCreated(code, sid))])
  }

  // ---------------------------------------------------------------- join-room

  /** join-room: three refusals in a fixed order, each leaving the server
      untouched; otherwise the joiner is added as a non-host. */
  function JoinRoom(s: Server, sid: PlayerId, code: Code, name: Option<string>, skin: Option<int>): (rep: Reply)
    ensures code !in s.rooms ==>
              rep == Reply(s, [Emit(Sender, JoinError(RoomNotFound))])
    ensures code in s.rooms && s.rooms[code].gameState == Playing ==>
              rep == Reply(s, [Emit(Sender, JoinError(GameInProgress))])
    ensures code in s.rooms && s.rooms[code].gameState != Playing && Size(s.rooms[code].players) >= Config.MaxPlayers ==>
              rep == Reply(s, [Emit(Sender, JoinError(RoomFull))])
    ensures code in s.rooms && s.rooms[code].gameState != Playing && Size(s.rooms[code].players) < Config.MaxPlayers ==>
              var room := s.rooms[code];
              var p := NewPlayer(sid, NameOr(name, Size(room.players) + 1), skin, false);
              && rep.server.sessions == s.sessions[sid := code]
              && code in rep.server.rooms
              && rep.server.rooms == s.rooms[code := rep.server.rooms[code]]
              && rep.server.rooms[code] == room.(players := rep.server.rooms[code].players)
              && rep.server.rooms[code].players.entries == room.players.entries[sid := p]
              && (Valid(room.players) && sid !in room.players.entries ==>
                    && Size(rep.server.rooms[code].players) == Size(room.players) + 1
                    && rep.server.rooms[code].players.order == room.players.order + [sid])
              && rep.out == [Emit(Everyone(code), PlayerJoined(sid, p.name, p.skin)),
                             Emit(Sender, RoomJoined(code, sid, sid == room.host))]
  {
    if code !in s.rooms then
      Reply(s, [Emit(Sender, JoinError(RoomNotFound))])
    else if s.rooms[code].gameState == Playing then
      Reply(s, [Emit(Sender, JoinError(GameInProgress))])
    else if Size(s.rooms[code].players) >= Config.MaxPlayers then
      Reply(s, [Emit(Sender, JoinError(RoomFull))])
    else
      var room := s.rooms[code];
      var p := NewPlayer(sid, NameOr(name, Size(room.players) + 1), skin, false);
      var room' := room.(players := Put(room.players, sid, p));
      Reply(Server(s.rooms[code := room'], s.sessions[sid := code]),
            [Emit(Everyone(code), PlayerJoined(sid, p.name, p.skin)),
             Emit(Sender, RoomJoined(code, sid, sid == room.host))])
  }

  /** The property names every object inherits from `Object.prototype`:
      `rooms[code]` finds a truthy value under these although no room was
      stored there. */
  const PrototypeNames: set<string> := {
    "constructor", "__proto__", "hasOwnProperty", "isPrototypeOf", "propertyIsEnumerable",
    "toString", "toLocaleString", "valueOf",
    "__defineGetter__", "__defineSetter__", "__lookupGetter__", "__lookupSetter__"}

  /** join-room as written: under an inherited name the existence and
      game-state tests pass, and `Object.keys(undefined)` throws. Any other
      code behaves as `JoinRoom`, which tests for an own key instead. */
  function JoinRoomAsWritten(s: Server, sid: PlayerId, code: Code, name: Option<string>,
                             skin: Option<int>): (o: Outcome)
    ensures o.Crashed? <==> code !in s.rooms && code in PrototypeNames
    ensures o.Handled? ==> o.reply == JoinRoom(s, sid, code, name, skin)
  {
    if code !in s.rooms && code in PrototypeNames then Crashed
    else Handled(JoinRoom(s, sid, code, name, skin))
  }

  /** A join-room for room `constructor` ends the process as written, where
      the intended answer is `Room not found` with nothing changed. */
  lemma InheritedCodeCrashes(s: Server, sid: PlayerId, name: Option<string>, skin: Option<int>)
    requires "constructor" !in s.rooms
    ensures JoinRoomAsWritten(s, sid, "constructor", name, skin) == Crashed
    ensures JoinRoom(s, sid, "constructor", name, skin) == Reply(s, [Emit(Sender, JoinError(RoomNotFound))])
  {
  }

  /** No room code is an inherited name, so the rooms create-room makes never
      shadow one and the two readings differ exactly on those names. */
  lemma RoomCodesAreNotInherited(c: string)
    requires IsRoomCode(c)
    ensures c !in PrototypeNames
  {
  }

  // ---------------------------------------------------------------- start-game

  /** The entities start-game creates: 6 treats, 2 roombas, 5 lasers. */
  datatype StartDraws = StartDraws(treat: nat -> TreatSeed, roomba: nat -> RoombaSeed, laser: nat -> LaserSeed)

  /** start-game: only the host of an existing room. The game state is not
      checked, so a playing or ended room is restarted; power-ups, doge,
      weather and winner are left as they were. */
  function StartGame(s: Server, sid: PlayerId, now: int, draws: StartDraws): (rep: Reply)
    ensures RoomOf(s, sid).None? || sid != s.rooms[s.sessions[sid]].host ==> rep == Reply(s, [])
    ensures RoomOf(s, sid).Some? && sid == s.rooms[s.sessions[sid]].host ==>
              var code := s.sessions[sid];
              var room := s.rooms[code];
              && code in rep.server.rooms
              && var room' := rep.server.rooms[code];
              && rep.server == s.(rooms := s.rooms[code := room'])
              && room'.gameState == Playing
              && |room'.treats| == Config.TreatCap && |room'.roombas| == Config.RoombaCount
              && |room'.lasers| == Config.LaserCount
              && room'.schedule == Schedule(Some(now + Config.TreatRespawnMs), Some(now + Config.DogeEveryMs),
                                            Some(now + Config.FirstWeatherDelayMs), Some(now + Config.SecretSauceInterval))
              && room'.sauce == SauceAtRest
              && room'.players == room.players && room'.host == room.host
              && room'.powerUps == room.powerUps && room'.doge == room.doge && room'.weather == room.weather
              && room' == room.(gameState := Playing, treats := room'.treats, roombas := room'.roombas,
                                lasers := room'.lasers, schedule := room'.schedule, sauce := SauceAtRest)
              && var w := room.settings.canvasWidth;
              && var h := room.settings.canvasHeight;
              && (forall i :: 0 <= i < |room'.treats| ==> room'.treats[i] == SpawnTreat(w, h, draws.treat(i)))
              && (forall i :: 0 <= i < |room'.roombas| ==> room'.roombas[i] == SpawnRoomba(w, h, draws.roomba(i)))
              && (forall i :: 0 <= i < |room'.lasers| ==> room'.lasers[i] == SpawnLaser(w, h, draws.laser(i)))
              && rep.out == [Emit(Everyone(code), GameStarted)]
  {
    match RoomOf(s, sid)
    case None => Reply(s, [])
    case Some(code) =>
      var room := s.rooms[code];
      if sid != room.host then Reply(s, [])
      else
        var w := room.settings.canvasWidth;
        var h := room.settings.canvasHeight;
        var room' := room.(
          gameState := Playing,
          treats := seq(Config.TreatCap, i requires 0 <= i => SpawnTreat(w, h, draws.treat(i))),
          roombas := seq(Config.RoombaCount, i requires 0 <= i => SpawnRoomba(w, h, draws.roomba(i))),
          lasers := seq(Config.LaserCount, i requires 0 <= i => SpawnLaser(w, h, draws.laser(i))),
          schedule := Schedule(Some(now + Config.TreatRespawnMs), Some(now + Config.DogeEveryMs),
                               Some(now + Config.FirstWeatherDelayMs), Some(now + Config.SecretSauceInterval)),
          sauce := SauceAtRest);
        Reply(s.(rooms := s.rooms[code := room']), [Emit(Everyone(code), GameStarted)])
  }

  // ---------------------------------------------------------------- disconnect

  /** disconnect: the connection's entry leaves its room; an emptied room is
      deleted; otherwise a departing host hands over to the first remaining
      key. The connection itself is gone afterwards. */
  function Disconnect(s: Server, sid: PlayerId): (rep: Reply)
    requires WellFormed(s)
    ensures rep.server.sessions == s.sessions - {sid}
    ensures RoomOf(s, sid).None? ==> rep == Reply(s.(sessions := s.sessions - {sid}), [])
    ensures RoomOf(s, sid).Some? ==>
              var code := s.sessions[sid];
              var room := s.rooms[code];
              var rest := Remove(room.players, sid);
              && rep.server.rooms.Keys <= s.rooms.Keys
              && (forall c :: c in s.rooms && c != code ==> c in rep.server.rooms && rep.server.rooms[c] == s.rooms[c])
              && (code !in rep.server.rooms <==> Size(rest) == 0)
              && (code in rep.server.rooms ==>
                    var room' := rep.server.rooms[code];
                    && room'.players.order == rest.order
                    && room'.players.entries.Keys == rest.entries.Keys
                    && sid !in room'.players.entries
                    && (sid == room.host ==> room'.host == First(rest) && room'.players.entries[room'.host].isHost)
                    && (sid != room.host ==> room' == room.(players := rest))
                    && (forall k :: k in room'.players.entries ==>
                          room'.players.entries[k] == rest.entries[k].(isHost := room'.players.entries[k].isHost))
                    && (forall k :: k in room'.players.entries && k != room'.host ==>
                          room'.players.entries[k].isHost == rest.entries[k].isHost)
                    && room' == room.(players := room'.players, host := room'.host))
              && rep.out == (if sid in room.players.entries then [Emit(Others(code), PlayerLeft(sid))] else [])
                            + (if code in rep.server.rooms && sid == room.host
                               then [Emit(Everyone(code), NewHost(rep.server.rooms[code].host))] else [])
  {
    var s0 := s.(sessions := s.sessions - {sid});
    match RoomOf(s, sid)
    case None => Reply(s0, [])
    case Some(code) =>
      var room := s.rooms[code];
      var left := if sid in room.players.entries then [Emit(Others(code), PlayerLeft(sid))] else [];
      if Size(Remove(room.players, sid)) == 0 then
        Reply(s0.(rooms := s.rooms - {code}), left)
      else
        var room' := Remaining(room, sid);
        Reply(s0.(rooms := s.rooms[code := room']),
              if sid == room.host then left + [Emit(Everyone(code), NewHost(room'.host))] else left)
  }

  /** The room a departing player leaves behind when others remain: a
      departing host hands over to the first remaining key. */
  function Remaining(room: Room, sid: PlayerId): (room': Room)
    requires Valid(room.players) && Size(Remove(room.players, sid)) > 0
    ensures var rest := Remove(room.players, sid);
            && room'.players.order == rest.order
            && room'.players.entries.Keys == rest.entries.Keys
            && sid !in room'.players.entries
            && (sid == room.host ==> room'.host == First(rest) && room'.players.entries[room'.host].isHost)
            && (sid != room.host ==> room' == room.(players := rest))
            && (forall k :: k in room'.players.entries ==>
                  room'.players.entries[k] == rest.entries[k].(isHost := room'.players.entries[k].isHost))
            && (forall k :: k in room'.players.entries && k != room'.host ==>
                  room'.players.entries[k].isHost == rest.entries[k].isHost)
            && room' == room.(players := room'.players, host := room'.host)
  {
    var rest := Remove(room.players, sid);
    if sid == room.host then
      var heir := First(rest);
      assert heir in rest.order;
      room.(players := Put(rest, heir, rest.entries[heir].(isHost := true)), host := heir)
    else
      room.(players := rest)
  }

  // ---------------------------------------------------------------- ticking

  /** One firing of a room's interval: a missing or non-playing room is left
      alone (the interval cancels itself); otherwise the room is stepped and a
      snapshot goes to every member. */
  function TickRoom(s: Server, code: Code, now: int, phys: Simulation.Physics,
                    draws: Simulation.TickDraws): (rep: Reply)
    ensures code !in s.rooms || s.rooms[code].gameState != Playing ==> rep == Reply(s, [])
    ensures code in s.rooms && s.rooms[code].gameState == Playing ==>
              && rep.server == s.(rooms := s.rooms[code := Simulation.UpdateGameState(s.rooms[code], now, phys, draws)])
              && rep.out == [Emit(Everyone(code), GameStateUpdate)]
  {
    if code !in s.rooms || s.rooms[code].gameState != Playing then Reply(s, [])
    else
      Reply(s.(rooms := s.rooms[code := Simulation.UpdateGameState(s.rooms[code], now, phys, draws)]),
            [Emit(Everyone(code), GameStateUpdate)])
  }
}

=== FILE: registry.dfy ===
/** The server's room table (`rooms`, index.js:36) together with each
    connection's current room (`socket.roomCode`), the outbound messages the
    handlers emit, and the stale-room sweep (index.js:716-729). */
module Registry {
  import opened Wrappers
  import opened Roster
  import opened Entities
  import opened Rooms
  import Config

  /** Who receives a message: the sending connection, the rest of a room, or
      the whole room. */
  datatype Audience = Sender | Others(room: Code) | Everyone(room: Code)

  /** Outbound events, with the payload fields the model keeps. */
  datatype Message =
    | RoomCreated(code: Code, playerId: PlayerId)
    | JoinError(message: string)
    | PlayerJoined(id: PlayerId, name: string, skin: int)
    | RoomJoined(code: Code, playerId: PlayerId, isHost: bool)
    | GameStarted
    | PlayerUpdated(id: PlayerId)
    | ActionRelayed(id: PlayerId)
    | TreatSpawned(treat: Treat)
    | GameStateUpdate
    | PlayerLeft(id: PlayerId)
    | NewHost(id: PlayerId)

  datatype Emit = Emit(to: Audience, msg: Message)

  /** `sessions[id]` is the `roomCode` stored on connection `id`. */
  datatype Server = Server(rooms: map<Code, Room>, sessions: map<PlayerId, Code>)

  /** A handler's outcome: the new server state and what it sends. */
  datatype Reply = Reply(server: Server, out: seq<Emit>)

  /** A handler either completes or throws. Nothing catches the exception,
      so a throw ends the server process. */
  datatype Outcome = Handled(reply: Reply) | Crashed

  const NoServer := Server(map[], map[])

  ghost predicate ServerOk(s: Server) {
    forall c :: c in s.rooms ==> RoomOk(s.rooms[c])
  }

  /** Every room's players object is a well-formed JavaScript object. */
  ghost predicate WellFormed(s: Server) {
    forall c :: c in s.rooms ==> Valid(s.rooms[c].players)
  }

  /** The room a connection's handlers act on: `socket.roomCode`, when set and
      still present in the table. */
  function RoomOf(s: Server, sid: PlayerId): (c: Option<Code>)
    ensures c.Some? <==> sid in s.sessions && s.sessions[sid] in s.rooms
    ensures c.Some? ==> c.value == s.sessions[sid]
  {
    if sid in s.sessions && s.sessions[sid] in s.rooms then Some(s.sessions[sid]) else None
  }

  /** `lastActivity && now - lastActivity > 3h`; `0` and `undefined` are falsy. */
  predicate Stale(r: Room, now: int) {
    r.lastActivity.Some? && r.lastActivity.value != 0 && now - r.lastActivity.value > Config.StaleAfterMs
  }

  /** The periodic sweep: drop every stale room, keep the rest untouched. */
  function SweepStale(s: Server, now: int): (s': Server)
    ensures forall c :: c in s'.rooms <==> c in s.rooms && !Stale(s.rooms[c], now)
    ensures forall c :: c in s'.rooms ==> s'.rooms[c] == s.rooms[c]
    ensures s'.sessions == s.sessions
  {
    s.(rooms := map c | c in s.rooms && !Stale(s.rooms[c], now) :: s.rooms[c])
  }

  /** Every room's host is one of its players. */
  ghost predicate HostIn(s: Server) {
    forall c :: c in s.rooms ==> s.rooms[c].host in s.rooms[c].players.entries
  }

  /** No room carries a `lastActivity` stamp. */
  ghost predicate NoActivity(s: Server) {
    forall c :: c in s.rooms ==> s.rooms[c].lastActivity.None?
  }

  /** `lastActivity` is never assigned, so the sweep removes nothing from a
      server whose rooms carry no stamp; `Sessions.Settled` shows every
      handler keeps that. */
  lemma SweepIsVacuous(s: Server, now: int)
    requires NoActivity(s)
    ensures SweepStale(s, now) == s
  {
    var s' := SweepStale(s, now);
    assert s'.rooms == s.rooms;
  }
}

=== FILE: room_code.dfy ===
/** Room codes: six symbols drawn from an alphabet without the look-alike
    characters I, O, 0 and 1, redrawn while the code is taken
    (generateRoomCode, index.js:355-365). */
module RoomCode {
  import opened Wrappers

  const Alphabet := "ABCDEFGHJKLMNPQRSTUVWXYZ23456789"
  const CodeLength := 6

  /** `Math.floor(Math.random() * 32)`: a position in the alphabet. */
  type CharIndex = i: int | 0 <= i < 32

  /** The six positions drawn for one attempt. */
  type Draw = d: seq<CharIndex> | |d| == CodeLength witness [0, 0, 0, 0, 0, 0]

  predicate IsRoomCode(c: string) {
    |c| == CodeLength && forall i :: 0 <= i < |c| ==> c[i] in Alphabet
  }

  /** The code one attempt spells. */
  function Spell(d: Draw): (c: string)
    ensures IsRoomCode(c)
    ensures forall i :: 0 <= i < CodeLength ==> c[i] == Alphabet[d[i]]
  {
    seq(CodeLength, i requires 0 <= i < CodeLength => Alphabet[d[i]])
  }

  /** The first attempt whose code is not taken, or `None` when every given
      attempt collides (the source would keep drawing). */
  function GenerateRoomCode(taken: set<string>, attempts: seq<Draw>): (r: Option<string>)
    ensures r.Some? ==> IsRoomCode(r.value) && r.value !in taken
    ensures r.Some? ==> exists i :: 0 <= i < |attempts| && r.value == Spell(attempts[i]) &&
                                    forall j :: 0 <= j < i ==> Spell(attempts[j]) in taken
    ensures r.None? <==> forall i :: 0 <= i < |attempts| ==> Spell(attempts[i]) in taken
  {
    if |attempts| == 0 then None
    else if Spell(attempts[0]) in taken then
      var r := GenerateRoomCode(taken, attempts[1..]);
      assert forall i :: 1 <= i < |attempts| ==> attempts[1..][i - 1] == attempts[i];
      r
    else Some(Spell(attempts[0]))
  }
}

=== FILE: rooms.dfy ===
/** The per-room record kept in the server's `rooms` table (index.js:89-110,
    extended by start-game at index.js:205-216) and the invariants every
    handler and every tick preserves. */
module Rooms {
  import opened Wrappers
  import opened Roster
  import opened Entities
  import Config

  type Code = string

  datatype GameState = Waiting | Playing | Ended

  datatype Settings = Settings(targetScore: int, maxPlayers: int, canvasWidth: int, canvasHeight: int)

  const DefaultSettings := Settings(Config.DefaultTargetScore, Config.MaxPlayers,
                                    Config.DefaultWidth, Config.DefaultHeight)

  /** The tick's deadlines. A deadline is `None` while the source field is
      still `undefined` (before the first start-game). */
  datatype Schedule = Schedule(nextTreatAt: Option<int>, nextDogeAt: Option<int>,
                               nextWeatherEvent: Option<int>, nextSecretSauce: Option<int>)

  const Unscheduled := Schedule(None, None, None, None)

  /** `now >= deadline`; a comparison with `undefined` is false. */
  predicate Due(now: int, deadline: Option<int>) {
    deadline.Some? && now >= deadline.value
  }

  /** Every deadline has been set. */
  predicate Scheduled(s: Schedule) {
    s.nextTreatAt.Some? && s.nextDogeAt.Some? && s.nextWeatherEvent.Some? && s.nextSecretSauce.Some?
  }

  datatype Room = Room(
    players: Roster<PlayerId, Player>,
    treats: seq<Treat>,
    roombas: seq<Roomba>,
    lasers: seq<Laser>,
    powerUps: seq<PowerUp>,
    doge: Option<Doge>,
    weather: Option<Weather>,
    sauce: SecretSauce,
    gameState: GameState,
    host: PlayerId,
    winner: Option<string>,
    settings: Settings,
    schedule: Schedule,
    lastActivity: Option<int>)

  /** Decimal spelling of a natural number. */
  function Decimal(n: nat): (s: string)
    ensures |s| > 0 && forall i :: 0 <= i < |s| ==> '0' <= s[i] <= '9'
  {
    var last := [(('0' as int) + n % 10) as char];
    if n < 10 then last else Decimal(n / 10) + last
  }

  /** The name given to a player who did not choose one: `Player <n>`. */
  function DefaultName(n: nat): string {
    "Player " + Decimal(n)
  }

  /** `name || default`: an absent or empty name is replaced. */
  function NameOr(name: Option<string>, n: nat): string {
    if name.Some? && name.value != "" then name.value else DefaultName(n)
  }

  /** A player record as created by create-room and join-room. */
  function NewPlayer(id: PlayerId, name: string, skin: Option<int>, isHost: bool): Player {
    Player(id, name, skin.GetOr(0), Origin, 0, isHost)
  }

  /** The record create-room stores: the creator is the only player and the host. */
  function NewRoom(creator: Player): (r: Room)
    ensures RoomOk(r) == creator.isHost
    ensures Size(r.players) == 1 && r.host == creator.id && r.gameState == Waiting
    ensures r.players.order == [creator.id] && r.players.entries == map[creator.id := creator]
    ensures Fresh(r)
  {
    Room(Put(Empty(), creator.id, creator), [], [], [], [], None, None, SauceAtRest,
         Waiting, creator.id, None, DefaultSettings, Unscheduled, None)
  }

  /** The state create-room gives a room besides its players: no entities, no
      doge or weather, a resting frenzy, no winner, the default settings and
      no deadline yet. */
  predicate Fresh(r: Room) {
    && r.treats == [] && r.roombas == [] && r.lasers == [] && r.powerUps == []
    && r.doge.None? && r.weather.None? && r.sauce == SauceAtRest
    && r.winner.None? && r.settings == DefaultSettings
    && r.schedule == Unscheduled && r.lastActivity.None?
  }

  /** Exactly one player carries `isHost`, it is the one named by `host`, and
      every entry is stored under its own id. */
  ghost predicate HostOk(r: Room) {
    var ps := r.players.entries;
    && Valid(r.players)
    && Size(r.players) > 0
    && r.host in ps
    && ps[r.host].isHost
    && (forall k :: k in ps && ps[k].isHost ==> k == r.host)
    && (forall k :: k in ps ==> ps[k].id == k)
  }

  /** Bounds the tick keeps: at most the frenzy ceiling of treats, a present
      doge still has time to live, a playing room has all its deadlines, an
      active weather or frenzy has a next slot, and `lastActivity` (never
      assigned anywhere) is still unset. */
  ghost predicate WorldOk(r: Room) {
    && |r.treats| <= Config.FrenzyTreatCap
    && (r.doge.Some? ==> r.doge.value.ttl > 0)
    && (r.gameState == Playing ==> Scheduled(r.schedule))
    && (r.weather.Some? ==> r.schedule.nextWeatherEvent.Some?)
    && (r.sauce.active ==> r.schedule.nextSecretSauce.Some?)
    && r.lastActivity.None?
  }

  ghost predicate RoomOk(r: Room) {
    HostOk(r) && WorldOk(r)
  }
}

=== FILE: roster.dfy ===
/** A JavaScript plain object used as a dictionary: its entries together with
    the order in which keys were first inserted. `Object.keys(o)` and
    `for (k in o)` walk keys in that order (socket ids are never array-index
    strings, so insertion order is the whole story). */
module Roster {
  import opened Seqs

  datatype Roster<K, V> = Roster(order: seq<K>, entries: map<K, V>)

  /** The key sequence lists every entry exactly once. */
  ghost predicate Valid<K(!new), V>(r: Roster<K, V>) {
    && Distinct(r.order)
    && (forall k :: k in r.order <==> k in r.entries)
  }

  /** `Object.keys(o).length`. */
  function Size<K, V>(r: Roster<K, V>): nat {
    |r.order|
  }

  function Empty<K(==,!new), V>(): (r: Roster<K, V>)
    ensures Valid(r) && Size(r) == 0
  {
    Roster([], map[])
  }

  /** `o[k] = v`: a new key goes to the end of the order, an existing key keeps
      its place. */
  function Put<K(==,!new), V>(r: Roster<K, V>, k: K, v: V): (r': Roster<K, V>)
    ensures Valid(r) ==> Valid(r')
    ensures r'.entries.Keys == r.entries.Keys + {k} && r'.entries[k] == v
    ensures forall j :: j in r.entries && j != k ==> j in r'.entries && r'.entries[j] == r.entries[j]
    ensures Valid(r) ==> Size(r') == Size(r) + (if k in r.entries then 0 else 1)
    ensures |r.order| <= |r'.order| && r'.order[..|r.order|] == r.order
  {
    Roster(if k in r.entries then r.order else r.order + [k], r.entries[k := v])
  }

  /** The test `j != k`, as a value for `Filter`. */
  function Other<K(==)>(k: K): K -> bool {
    j => j != k
  }

  /** `delete o[k]`: the other keys keep their relative order. */
  function Remove<K(==,!new), V>(r: Roster<K, V>, k: K): (r': Roster<K, V>)
    ensures Valid(r) ==> Valid(r')
    ensures r'.entries.Keys == r.entries.Keys - {k}
    ensures forall j :: j in r'.entries ==> r'.entries[j] == r.entries[j]
    ensures forall j :: j in r'.order <==> j in r.order && j != k
  {
    var order' := Filter(r.order, Other(k));
    FilterDistinct(r.order, Other(k));
    Roster(order', r.entries - {k})
  }

  /** `Object.keys(o)[0]`. */
  function First<K, V>(r: Roster<K, V>): K
    requires Size(r) > 0
  {
    r.order[0]
  }

  /** The values in key order (what `for (k in o) { o[k] ... }` visits). */
  function Values<K(==,!new), V>(r: Roster<K, V>): (vs: seq<V>)
    ensures Valid(r) ==> |vs| == Size(r)
    ensures Valid(r) ==> forall i :: 0 <= i < |vs| ==> vs[i] == r.entries[r.order[i]]
  {
    ValuesOf(r.order, r.entries)
  }

  function ValuesOf<K(==,!new), V>(ks: seq<K>, m: map<K, V>): (vs: seq<V>)
    ensures (forall k :: k in ks ==> k in m) ==> |vs| == |ks|
    ensures (forall k :: k in ks ==> k in m) ==> forall i :: 0 <= i < |vs| ==> vs[i] == m[ks[i]]
  {
    if |ks| == 0 then []
    else (if ks[0] in m then [m[ks[0]]] else []) + ValuesOf(ks[1..], m)
  }

  /** Filtering out a key that only the last position holds drops that position. */
  lemma DropAppended<K(!new)>(order: seq<K>, k: K)
    requires k !in order
    ensures Filter(order + [k], Other(k)) == order
  {
    FilterAppend(order, [k], Other(k));
    assert Filter([k], Other(k)) == [];
    FilterKeepsAll(order, Other(k));
  }

  /** `delete` splices the key out of its place: the keys before it and the
      keys after it keep their order. */
  lemma RemoveSplices<K(!new), V>(r: Roster<K, V>, i: nat)
    requires Valid(r) && i < |r.order|
    ensures Remove(r, r.order[i]).order == r.order[..i] + r.order[i + 1..]
  {
    FilterDropsAt(r.order, i, Other(r.order[i]));
  }

  /** Deleting an absent key leaves the key order as it was. */
  lemma RemoveAbsent<K(!new), V>(r: Roster<K, V>, k: K)
    requires Valid(r) && k !in r.entries
    ensures Remove(r, k).order == r.order
  {
    FilterKeepsAll(r.order, Other(k));
  }

  /** The key `Object.keys(o)[0]` names after a delete: the second key when
      the first was deleted, the first key otherwise. */
  lemma FirstAfterRemove<K(!new), V>(r: Roster<K, V>, k: K)
    requires Valid(r) && Size(Remove(r, k)) > 0
    ensures First(Remove(r, k)) == (if r.order[0] == k then r.order[1] else r.order[0])
  {
    if k in r.entries {
      var i :| 0 <= i < |r.order| && r.order[i] == k;
      RemoveSplices(r, i);
      if i == 0 {
        assert |r.order| > 1;
      }
    } else {
      RemoveAbsent(r, k);
    }
  }

  /** Removing a key that was just inserted restores the original object. */
  lemma PutThenRemove<K(!new), V>(r: Roster<K, V>, k: K, v: V)
    requires Valid(r) && k !in r.entries
    ensures Remove(Put(r, k, v), k) == r
  {
    DropAppended(r.order, k);
    assert r.entries[k := v] - {k} == r.entries;
  }

  /** Removing a present key shrinks the object by exactly one. */
  lemma RemoveSize<K(!new), V>(r: Roster<K, V>, k: K)
    requires Valid(r)
    ensures Size(Remove(r, k)) == Size(r) - (if k in r.entries then 1 else 0)
  {
    if k in r.entries {
      FilterDropsOne(r.order, Other(k), k);
    } else {
      FilterKeepsAll(r.order, Other(k));
    }
  }

  /** In a valid object the key count is the number of entries. */
  lemma SizeIsCardinality<K(!new), V>(r: Roster<K, V>)
    requires Valid(r)
    ensures Size(r) == |r.entries|
    decreases |r.order|
  {
    if |r.order| > 0 {
      var k := r.order[0];
      var rest := Remove(r, k);
      RemoveSize(r, k);
      SizeIsCardinality(rest);
      assert r.entries.Keys == rest.entries.Keys + {k};
    }
  }
}

=== FILE: scenarios.dfy ===
/** End-to-end runs of the session protocol from an empty server, for any
    connection ids and any random draws. */
module Scenarios {
  import opened Wrappers
  import opened Seqs
  import opened Roster
  import opened Entities
  import opened Rooms
  import opened RoomCode
  import opened Registry
  import opened Lifecycle
  import opened Invariants

  /** Creating a room and having a second player join it. */
  lemma TwoPlayerRoom(a: PlayerId, b: PlayerId, attempts: seq<Draw>)
    requires FreshCodeAvailable(NoServer, attempts) && a != b
    ensures var created := CreateRoom(NoServer, a, None, None, attempts);
            var code := created.out[0].msg.code;
            var second := JoinRoom(created.server, b, code, None, None);
            && ServerOk(second.server)
            && second.server.sessions == map[a := code, b := code]
            && code in second.server.rooms
            && second.server.rooms[code].host == a
            && second.server.rooms[code].players.order == [a, b]
            && second.server.rooms[code].players.entries[b].name == DefaultName(2)
            && !second.server.rooms[code].players.entries[b].isHost
  {
    var created := CreateRoom(NoServer, a, None, None, attempts);
    var code := created.out[0].msg.code;
    CreateRoomKeepsOk(NoServer, a, None, None, attempts);
    JoinRoomKeepsOk(created.server, b, code, None, None);
  }

  /** Two players fill a room; a third join attempt is refused as full and
      changes nothing. */
  lemma ThirdPlayerIsTurnedAway(a: PlayerId, b: PlayerId, c: PlayerId, attempts: seq<Draw>)
    requires FreshCodeAvailable(NoServer, attempts) && a != b
    ensures var created := CreateRoom(NoServer, a, None, None, attempts);
            var code := created.out[0].msg.code;
            var second := JoinRoom(created.server, b, code, None, None);
            JoinRoom(second.server, c, code, None, None) == Reply(second.server, [Emit(Sender, JoinError(RoomFull))])
  {
    TwoPlayerRoom(a, b, attempts);
  }

  /** The host of a room holding exactly the host and one guest disconnects. */
  lemma HostHandsOver(t: Server, a: PlayerId, b: PlayerId, code: Code)
    requires WellFormed(t) && RoomOf(t, a) == Some(code)
    requires t.rooms[code].host == a && t.rooms[code].players.order == [a, b] && a != b
    ensures var left := Disconnect(t, a);
            && code in left.server.rooms
            && left.server.rooms[code].host == b
            && left.server.rooms[code].players.order == [b]
            && left.server.rooms[code].players.entries[b].isHost
            && left.out == [Emit(Others(code), PlayerLeft(a)), Emit(Everyone(code), NewHost(b))]
  {
    assert Filter([a, b], Other(a)) == [b];
  }

  /** When the host of a two-player room disconnects, the other player becomes
      host and is told so. */
  lemma HostLeavesTwoPlayerRoom(a: PlayerId, b: PlayerId, attempts: seq<Draw>)
    requires FreshCodeAvailable(NoServer, attempts) && a != b
    ensures var created := CreateRoom(NoServer, a, None, None, attempts);
            var code := created.out[0].msg.code;
            var second := JoinRoom(created.server, b, code, None, None);
            WellFormed(second.server) &&
            var left := Disconnect(second.server, a);
            && code in left.server.rooms
            && left.server.rooms[code].host == b
            && left.out == [Emit(Others(code), PlayerLeft(a)), Emit(Everyone(code), NewHost(b))]
  {
    TwoPlayerRoom(a, b, attempts);
    var created := CreateRoom(NoServer, a, None, None, attempts);
    var code := created.out[0].msg.code;
    HostHandsOver(JoinRoom(created.server, b, code, None, None).server, a, b, code);
  }

  /** When the last player disconnects the room is deleted, and joining it
      afterwards reports that it does not exist. */
  lemma LastPlayerLeaves(a: PlayerId, b: PlayerId, attempts: seq<Draw>)
    requires FreshCodeAvailable(NoServer, attempts)
    ensures var created := CreateRoom(NoServer, a, None, None, attempts);
            var code := created.out[0].msg.code;
            WellFormed(created.server) &&
            var left := Disconnect(created.server, a);
            && code !in left.server.rooms
            && JoinRoom(left.server, b, code, None, None).out == [Emit(Sender, JoinError(RoomNotFound))]
  {
    CreateRoomKeepsOk(NoServer, a, None, None, attempts);
    var created := CreateRoom(NoServer, a, None, None, attempts);
    assert Filter([a], Other(a)) == [];
  }
}

=== FILE: seqs.dfy ===
/** Sequence helpers shared by the room model: filtering (JavaScript's
    `Array.prototype.filter`) and distinctness. */
module Seqs {

  /** No element occurs twice. */
  predicate Distinct<T(==,!new)>(s: seq<T>) {
    forall i, j | 0 <= i < j < |s| :: s[i] != s[j]
  }

  /** The elements of `s` that satisfy `keep`, in their original order. */
  function Filter<T(==,!new)>(s: seq<T>, keep: T -> bool): (r: seq<T>)
    ensures |r| <= |s|
    ensures forall x :: x in r <==> x in s && keep(x)
  {
    if |s| == 0 then []
    else (if keep(s[0]) then [s[0]] else []) + Filter(s[1..], keep)
  }

  /** Filtering commutes with concatenation: survivors keep their relative order. */
  lemma {:induction false} FilterAppend<T(!new)>(a: seq<T>, b: seq<T>, keep: T -> bool)
    ensures Filter(a + b, keep) == Filter(a, keep) + Filter(b, keep)
    decreases |a|
  {
    if |a| == 0 {
      assert a + b == b;
    } else {
      assert (a + b)[1..] == a[1..] + b;
      FilterAppend(a[1..], b, keep);
    }
  }

  /** Filtering changes nothing exactly when every element is kept. */
  lemma {:induction false} FilterKeepsAll<T(!new)>(s: seq<T>, keep: T -> bool)
    ensures (forall x :: x in s ==> keep(x)) <==> Filter(s, keep) == s
    decreases |s|
  {
    if |s| > 0 {
      FilterKeepsAll(s[1..], keep);
      if forall x :: x in s ==> keep(x) {
        assert forall x :: x in s[1..] ==> x in s;
        assert s == [s[0]] + s[1..];
      }
    }
  }

  /** Filtering out exactly the element at position `i` splices it out. */
  lemma {:induction false} FilterDropsAt<T(!new)>(s: seq<T>, i: nat, keep: T -> bool)
    requires i < |s| && !keep(s[i])
    requires forall j :: 0 <= j < |s| && j != i ==> keep(s[j])
    ensures Filter(s, keep) == s[..i] + s[i + 1..]
    decreases i
  {
    if i == 0 {
      FilterAllKept(s[1..], keep);
    } else {
      FilterDropsAt(s[1..], i - 1, keep);
      assert [s[0]] + (s[1..][..i - 1] + s[1..][i..]) == s[..i] + s[i + 1..];
    }
  }

  /** Filtering keeps a sequence whose every position passes the test. */
  lemma {:induction false} FilterAllKept<T(!new)>(s: seq<T>, keep: T -> bool)
    requires forall j :: 0 <= j < |s| ==> keep(s[j])
    ensures Filter(s, keep) == s
    decreases |s|
  {
    if |s| > 0 {
      FilterAllKept(s[1..], keep);
    }
  }

  /** Filtering a duplicate-free sequence leaves it duplicate-free. */
  lemma {:induction false} FilterDistinct<T(!new)>(s: seq<T>, keep: T -> bool)
    ensures Distinct(s) ==> Distinct(Filter(s, keep))
    decreases |s|
  {
    if |s| > 0 && Distinct(s) {
      assert Distinct(s[1..]) by {
        forall i, j | 0 <= i < j < |s[1..]| ensures s[1..][i] != s[1..][j] {
          assert s[1..][i] == s[i + 1] && s[1..][j] == s[j + 1];
        }
      }
      var rest := Filter(s[1..], keep);
      FilterDistinct(s[1..], keep);
      assert s[0] !in s[1..] by {
        forall i | 0 <= i < |s[1..]| ensures s[1..][i] != s[0] {
          assert s[1..][i] == s[i + 1];
        }
      }
      assert s[0] !in rest;
      var r := Filter(s, keep);
      if keep(s[0]) {
        assert r == [s[0]] + rest;
        forall i, j | 0 <= i < j < |r| ensures r[i] != r[j] {
          if i == 0 {
            assert r[j] == rest[j - 1];
            assert r[j] in rest;
          } else {
            assert r[i] == rest[i - 1] && r[j] == rest[j - 1];
          }
        }
      } else {
        assert r == rest;
      }
    }
  }

  /** When exactly one element of a duplicate-free sequence fails `keep`,
      filtering shortens it by exactly one. */
  lemma {:induction false} FilterDropsOne<T(!new)>(s: seq<T>, keep: T -> bool, x: T)
    requires Distinct(s)
    requires x in s && !keep(x)
    requires forall y :: y in s && y != x ==> keep(y)
    ensures |Filter(s, keep)| == |s| - 1
    decreases |s|
  {
    if s[0] == x {
      assert x !in s[1..] by {
        forall i | 0 <= i < |s[1..]| ensures s[1..][i] != x {
          assert s[1..][i] == s[i + 1];
        }
      }
      assert forall y :: y in s[1..] ==> y in s && y != x;
      FilterKeepsAll(s[1..], keep);
    } else {
      assert x in s[1..] by {
        var i :| 0 <= i < |s| && s[i] == x;
        assert s[1..][i - 1] == x;
      }
      assert Distinct(s[1..]) by {
        forall i, j | 0 <= i < j < |s[1..]| ensures s[1..][i] != s[1..][j] {
          assert s[1..][i] == s[i + 1] && s[1..][j] == s[j + 1];
        }
      }
      assert forall y :: y in s[1..] ==> y in s;
      FilterDropsOne(s[1..], keep, x);
    }
  }
}

=== FILE: sessions.dfy ===
/** Connections and rooms stay bound together: a connection that has a room
    code always finds that room, and its own entry in it. create-room and
    join-room bind a connection only while adding its entry, and only its own
    disconnect removes the entry, dropping the binding with it. */
module Sessions {
  import opened Wrappers
  import opened Roster
  import opened Entities
  import opened Rooms
  import opened RoomCode
  import opened Registry
  import opened Lifecycle
  import opened Actions
  import Simulation

  ghost predicate Bound(s: Server) {
    forall sid :: sid in s.sessions ==>
      s.sessions[sid] in s.rooms && sid in s.rooms[s.sessions[sid]].players.entries
  }

  lemma CreateRoomKeepsBound(s: Server, sid: PlayerId, name: Option<string>, skin: Option<int>, attempts: seq<Draw>)
    requires Bound(s) && FreshCodeAvailable(s, attempts)
    ensures Bound(CreateRoom(s, sid, name, skin, attempts).server)
  {
  }

  lemma JoinRoomKeepsBound(s: Server, sid: PlayerId, code: Code, name: Option<string>, skin: Option<int>)
    requires Bound(s)
    ensures Bound(JoinRoom(s, sid, code, name, skin).server)
  {
  }

  lemma StartGameKeepsBound(s: Server, sid: PlayerId, now: int, draws: StartDraws)
    requires Bound(s)
    ensures Bound(StartGame(s, sid, now, draws).server)
  {
  }

  /** Another connection bound to the departing player's room is still in
      it, so the room survives and keeps that connection's entry. */
  lemma DisconnectKeepsBound(s: Server, sid: PlayerId)
    requires Settled(s) && Bound(s)
    ensures Bound(Disconnect(s, sid).server)
  {
    var t := Disconnect(s, sid).server;
    if RoomOf(s, sid).Some? {
      var code := s.sessions[sid];
      var rest := Remove(s.rooms[code].players, sid);
      assert Valid(s.rooms[code].players);
      forall j | j in t.sessions && t.sessions[j] == code
        ensures code in t.rooms && j in t.rooms[code].players.entries
      {
        assert j in rest.entries && j in rest.order;
      }
    }
  }

  lemma TickRoomKeepsBound(s: Server, code: Code, now: int, phys: Simulation.Physics, draws: Simulation.TickDraws)
    requires Bound(s)
    ensures Bound(TickRoom(s, code, now, phys, draws).server)
  {
  }

  lemma PlayerUpdateKeepsBound(s: Server, sid: PlayerId, pos: Option<Vec>, score: Option<int>)
    requires Bound(s)
    ensures Bound(PlayerUpdate(s, sid, pos, score).server)
  {
  }

  lemma PlayerActionKeepsBound(s: Server, sid: PlayerId, a: Action)
    requires Bound(s)
    ensures Bound(PlayerAction(s, sid, a).server)
  {
  }

  lemma RequestTreatKeepsBound(s: Server, sid: PlayerId, seed: TreatSeed)
    requires Bound(s)
    ensures Bound(RequestTreat(s, sid, seed).server)
  {
  }

  lemma SweepKeepsBound(s: Server, now: int)
    requires NoActivity(s) && Bound(s)
    ensures Bound(SweepStale(s, now))
  {
    SweepIsVacuous(s, now);
  }

  // ---------------------------------------------------------------- settled servers

  /** What holds in every reachable server, whatever the players send (a host
      re-joining its own room included): every players object is well formed,
      every room's host is one of its players, and no room carries a
      `lastActivity` stamp. `Disconnect` needs the first, the host hand-over
      keeps the second, and the vacuous sweep rests on the third. */
  ghost predicate Settled(s: Server) {
    WellFormed(s) && HostIn(s) && NoActivity(s)
  }

  lemma NoServerSettled()
    ensures Settled(NoServer) && Bound(NoServer)
  {
  }

  lemma CreateRoomKeepsSettled(s: Server, sid: PlayerId, name: Option<string>, skin: Option<int>, attempts: seq<Draw>)
    requires Settled(s) && FreshCodeAvailable(s, attempts)
    ensures Settled(CreateRoom(s, sid, name, skin, attempts).server)
  {
  }

  lemma JoinRoomKeepsSettled(s: Server, sid: PlayerId, code: Code, name: Option<string>, skin: Option<int>)
    requires Settled(s)
    ensures Settled(JoinRoom(s, sid, code, name, skin).server)
  {
  }

  lemma StartGameKeepsSettled(s: Server, sid: PlayerId, now: int, draws: StartDraws)
    requires Settled(s)
    ensures Settled(StartGame(s, sid, now, draws).server)
  {
  }

  lemma DisconnectKeepsSettled(s: Server, sid: PlayerId)
    requires Settled(s)
    ensures Settled(Disconnect(s, sid).server)
  {
  }

  lemma TickRoomKeepsSettled(s: Server, code: Code, now: int, phys: Simulation.Physics, draws: Simulation.TickDraws)
    requires Settled(s)
    ensures Settled(TickRoom(s, code, now, phys, draws).server)
  {
  }

  lemma PlayerUpdateKeepsSettled(s: Server, sid: PlayerId, pos: Option<Vec>, score: Option<int>)
    requires Settled(s)
    ensures Settled(PlayerUpdate(s, sid, pos, score).server)
  {
  }

  lemma PlayerActionKeepsSettled(s: Server, sid: PlayerId, a: Action)
    requires Settled(s)
    ensures Settled(PlayerAction(s, sid, a).server)
  {
  }

  lemma RequestTreatKeepsSettled(s: Server, sid: PlayerId, seed: TreatSeed)
    requires Settled(s)
    ensures Settled(RequestTreat(s, sid, seed).server)
  {
  }

  /** The sweep of a settled server changes nothing, so it stays settled and
      bound. */
  lemma SweepKeepsSettled(s: Server, now: int)
    requires Settled(s)
    ensures SweepStale(s, now) == s && Settled(SweepStale(s, now))
  {
    SweepIsVacuous(s, now);
  }

  /** The state `Invariants.HostRejoinClearsHostFlag` reaches (create-room,
      then the creator's own join-room) is settled and bound, though no room
      in it is `RoomOk` any more. */
  lemma HostRejoinStaysSettled(sid: PlayerId, attempts: seq<Draw>)
    requires FreshCodeAvailable(NoServer, attempts)
    ensures var created := CreateRoom(NoServer, sid, None, None, attempts);
            var code := created.server.sessions[sid];
            var rejoined := JoinRoom(created.server, sid, code, None, None).server;
            && Settled(rejoined) && Bound(rejoined)
            && code in rejoined.rooms && !RoomOk(rejoined.rooms[code])
  {
    var created := CreateRoom(NoServer, sid, None, None, attempts);
    NoServerSettled();
    CreateRoomKeepsSettled(NoServer, sid, None, None, attempts);
    CreateRoomKeepsBound(NoServer, sid, None, None, attempts);
    var code := created.server.sessions[sid];
    JoinRoomKeepsSettled(created.server, sid, code, None, None);
    JoinRoomKeepsBound(created.server, sid, code, None, None);
  }

  /** In a bound server the sender of a player-action always has its entry,
      so collect-treat with a score never reaches the throwing write. */
  lemma ActionNeverThrows(s: Server, sid: PlayerId, a: Action)
    requires Bound(s) && RoomOf(s, sid).Some?
    ensures !Throws(s.rooms[s.sessions[sid]], sid, a)
  {
  }
}

=== FILE: simulation.dfy ===
/** One tick of a playing room (updateGameState, index.js:508-704): the
    discrete part of the simulation. Floating-point motion is supplied by the
    caller as `Physics`; random choices arrive as `TickDraws`. */
module Simulation {
  import opened Wrappers
  import opened Roster
  import opened Entities
  import opened Rooms
  import Config

  /** Motion the model leaves opaque. `drift` is one step of a moving treat
      (integrate, damp, snap, bounce off the padded bounds); `home` is a
      laser's new position when moving toward a target at a speed; `steer` is
      the doge's base-speed velocity from its position toward a player's. */
  datatype Physics = Physics(
    drift: (Vec, Vec) -> (Vec, Vec),
    home: (Vec, Vec, real) -> Vec,
    steer: (Vec, Vec) -> Vec)

  /** Everything a tick may draw at random. `retarget(i)` is the pair of unit
      draws for the i-th laser's new target; the booleans are the outcomes of
      `Math.random() < 0.004` (power-up) and `Math.random() < 0.5` (frenzy doge). */
  datatype TickDraws = TickDraws(
    treat: TreatSeed,
    retarget: nat -> (real, real),
    doge: DogeSeed,
    respawn: (real, real),
    powerUpRoll: bool,
    powerUp: PowerUpSeed,
    weather: WeatherKind,
    frenzyPowerUp: nat -> PowerUpSeed,
    frenzyDogeRoll: bool,
    frenzyDoge: DogeSeed,
    frenzyTreat: nat -> TreatSeed)

  function Min(a: int, b: int): int { if a <= b then a else b }
  function Max(a: int, b: int): int { if a >= b then a else b }

  // ---------------------------------------------------------------- treats

  /** Only a treat that is moving is touched by the physics step. */
  function DriftTreat(t: Treat, phys: Physics): (t': Treat)
    ensures t'.id == t.id
    ensures t.vel == Origin ==> t' == t
  {
    if t.vel == Origin then t
    else
      var (p, v) := phys.drift(t.pos, t.vel);
      Treat(t.id, p, v)
  }

  function DriftTreats(ts: seq<Treat>, phys: Physics): (ts': seq<Treat>)
    ensures |ts'| == |ts|
    ensures forall i :: 0 <= i < |ts| ==> ts'[i].id == ts[i].id
    ensures forall i :: 0 <= i < |ts| && ts[i].vel == Origin ==> ts'[i] == ts[i]
    ensures forall i :: 0 <= i < |ts| ==> ts'[i] == DriftTreat(ts[i], phys)
  {
    seq(|ts|, i requires 0 <= i < |ts| => DriftTreat(ts[i], phys))
  }

  /** The respawn timer: once due, and only below the steady-state cap, one
      treat is appended and the timer is rescheduled. */
  function TreatTimer(r: Room, now: int, seed: TreatSeed): (r': Room)
    ensures |r'.treats| == |r.treats| || |r'.treats| == |r.treats| + 1
    ensures r'.treats[..|r.treats|] == r.treats
    ensures |r'.treats| > |r.treats| <==> Due(now, r.schedule.nextTreatAt) && |r.treats| < Config.TreatCap
    ensures |r'.treats| > |r.treats| ==>
              && r'.treats == r.treats + [SpawnTreat(r.settings.canvasWidth, r.settings.canvasHeight, seed)]
              && |r'.treats| <= Config.TreatCap
              && r'.schedule == r.schedule.(nextTreatAt := Some(now + Config.TreatRespawnMs))
    ensures |r'.treats| == |r.treats| ==> r' == r
    ensures r'.(treats := r.treats, schedule := r.schedule) == r
  {
    if Due(now, r.schedule.nextTreatAt) && |r.treats| < Config.TreatCap then
      r.(schedule := r.schedule.(nextTreatAt := Some(now + Config.TreatRespawnMs)),
         treats := r.treats + [SpawnTreat(r.settings.canvasWidth, r.settings.canvasHeight, seed)])
    else r
  }

  // ---------------------------------------------------------------- roombas

  /** Move by the velocity; reverse a component whose coordinate is past its
      threshold (40 from the sides and bottom, 70 from the top). */
  function BounceRoomba(b: Roomba, w: int, h: int): (b': Roomba)
    ensures b'.id == b.id && b'.pos == b.pos.Plus(b.vel)
    ensures b'.vel.x == b.vel.x || b'.vel.x == -b.vel.x
    ensures b'.vel.y == b.vel.y || b'.vel.y == -b.vel.y
    ensures b.vel.x != 0.0 ==>
      (b'.vel.x == -b.vel.x <==> b'.pos.x < 40.0 || b'.pos.x > (w - 40) as real)
    ensures b.vel.y != 0.0 ==>
      (b'.vel.y == -b.vel.y <==> b'.pos.y < 70.0 || b'.pos.y > (h - 40) as real)
  {
    var p := b.pos.Plus(b.vel);
    var vx := if p.x < 40.0 || p.x > (w - 40) as real then -b.vel.x else b.vel.x;
    var vy := if p.y < 70.0 || p.y > (h - 40) as real then -b.vel.y else b.vel.y;
    Roomba(b.id, p, Vec(vx, vy))
  }

  function BounceRoombas(bs: seq<Roomba>, w: int, h: int): (bs': seq<Roomba>)
    ensures |bs'| == |bs|
    ensures forall i :: 0 <= i < |bs| ==> bs'[i] == BounceRoomba(bs[i], w, h)
  {
    seq(|bs|, i requires 0 <= i < |bs| => BounceRoomba(bs[i], w, h))
  }

  // ---------------------------------------------------------------- lasers

  /** Advance the phase; on every multiple of the retarget period pick a new
      target, then home toward the (possibly new) target. `t % 120 == 0` holds
      for the same `t` under JavaScript's and Dafny's remainder. */
  function StepLaser(l: Laser, w: int, h: int, draw: (real, real), phys: Physics): (l': Laser)
    ensures l'.id == l.id && l'.t == l.t + 1 && l'.speed == l.speed
    ensures l'.target != l.target ==> l'.t % Config.RetargetPeriod == 0
    ensures l'.t % Config.RetargetPeriod == 0 ==> l'.target == LaserTarget(w, h, draw.0, draw.1)
    ensures l'.pos == phys.home(l.pos, l'.target, l.speed)
  {
    var t := l.t + 1;
    var target := if t % Config.RetargetPeriod == 0 then LaserTarget(w, h, draw.0, draw.1) else l.target;
    Laser(l.id, phys.home(l.pos, target, l.speed), t, target, l.speed)
  }

  function StepLasers(ls: seq<Laser>, w: int, h: int, draws: nat -> (real, real), phys: Physics): (ls': seq<Laser>)
    ensures |ls'| == |ls|
    ensures forall i :: 0 <= i < |ls| ==> ls'[i] == StepLaser(ls[i], w, h, draws(i), phys)
  {
    seq(|ls|, i requires 0 <= i < |ls| => StepLaser(ls[i], w, h, draws(i), phys))
  }

  // ---------------------------------------------------------------- doge

  /** The spawn timer: only with no doge present and the timer due. */
  function DogeTimer(r: Room, now: int, seed: DogeSeed): (r': Room)
    ensures r'.doge.Some? && r.doge.None? <==> Due(now, r.schedule.nextDogeAt) && r.doge.None?
    ensures r'.doge != r.doge ==>
      && r'.doge == Some(SpawnDoge(r.settings.canvasWidth, r.settings.canvasHeight, seed))
      && r'.schedule == r.schedule.(nextDogeAt := Some(now + Config.DogeEveryMs))
    ensures r'.doge == r.doge ==> r' == r
    ensures r'.(doge := r.doge, schedule := r.schedule) == r
  {
    if r.doge.None? && Due(now, r.schedule.nextDogeAt) then
      r.(schedule := r.schedule.(nextDogeAt := Some(now + Config.DogeEveryMs)),
         doge := Some(SpawnDoge(r.settings.canvasWidth, r.settings.canvasHeight, seed)))
    else r
  }

  /** Player `ps[k]` is a first nearest among `ps[..n]`: no player is nearer,
      and every earlier one is strictly farther (the source's strict `<`). */
  ghost predicate FirstNearest(ps: seq<Player>, at: Vec, k: nat, n: nat)
    requires n <= |ps|
  {
    && k < n
    && (forall j :: 0 <= j < n ==> DistSq(ps[k].pos, at) <= DistSq(ps[j].pos, at))
    && (forall j :: 0 <= j < k ==> DistSq(ps[k].pos, at) < DistSq(ps[j].pos, at))
  }

  /** The chase-target scan from position `i` on, `best` being the winner so far. */
  function NearestFrom(ps: seq<Player>, at: Vec, i: nat, best: Option<nat>): (r: Option<nat>)
    requires i <= |ps|
    requires best.None? <==> i == 0
    requires best.Some? ==> FirstNearest(ps, at, best.value, i)
    ensures r.None? <==> |ps| == 0
    ensures r.Some? ==> FirstNearest(ps, at, r.value, |ps|)
    decreases |ps| - i
  {
    if i == |ps| then best
    else if best.None? || DistSq(ps[i].pos, at) < DistSq(ps[best.value].pos, at) then
      NearestFrom(ps, at, i + 1, Some(i))
    else
      NearestFrom(ps, at, i + 1, best)
  }

  /** The index of the player the doge chases, in key order. */
  function Nearest(ps: seq<Player>, at: Vec): (r: Option<nat>)
    ensures r.None? <==> |ps| == 0
    ensures r.Some? ==> FirstNearest(ps, at, r.value, |ps|)
  {
    NearestFrom(ps, at, 0, None)
  }

  /** Within capture distance: `dx² + dy² <= 51²`. */
  predicate Within(p: Player, at: Vec) {
    DistSq(p.pos, at) <= (Config.CaptureRadius * Config.CaptureRadius) as real
  }

  function FirstWithinFrom(ps: seq<Player>, at: Vec, i: nat): (r: Option<nat>)
    requires i <= |ps|
    ensures r.Some? ==> i <= r.value < |ps| && Within(ps[r.value], at) &&
                        forall j :: i <= j < r.value ==> !Within(ps[j], at)
    ensures r.None? ==> forall j :: i <= j < |ps| ==> !Within(ps[j], at)
    decreases |ps| - i
  {
    if i == |ps| then None
    else if Within(ps[i], at) then Some(i)
    else FirstWithinFrom(ps, at, i + 1)
  }

  /** The capture scan: the first player in key order within reach, whoever
      the doge is chasing. */
  function FirstWithin(ps: seq<Player>, at: Vec): (r: Option<nat>)
    ensures r.Some? ==> r.value < |ps| && Within(ps[r.value], at) &&
                        forall j :: 0 <= j < r.value ==> !Within(ps[j], at)
    ensures r.None? ==> forall j :: 0 <= j < |ps| ==> !Within(ps[j], at)
  {
    FirstWithinFrom(ps, at, 0)
  }

  /** The capture scan does not look at the chase target: with the first
      player in reach and the second strictly nearer, the doge chases the
      second and eats the first. */
  lemma CaptureIsNotTheChase(ps: seq<Player>, at: Vec)
    requires |ps| == 2 && Within(ps[0], at) && DistSq(ps[1].pos, at) < DistSq(ps[0].pos, at)
    ensures Nearest(ps, at) == Some(1) && FirstWithin(ps, at) == Some(0)
  {
  }

  /** The chase velocity, half as fast again in frenzy mode. */
  function ChaseVelocity(phys: Physics, from: Vec, to: Vec, frenzy: bool): Vec {
    var v := phys.steer(from, to);
    if frenzy then v.Scale(Config.FrenzySpeedFactor) else v
  }

  /** A hungry doge steers toward the nearest player and then checks every
      player for a capture; it does not move here. */
  function Chase(d: Doge, ps: seq<Player>, frenzy: bool, now: int, respawn: Vec, phys: Physics): (d': Doge)
    requires d.meal.None?
    ensures d'.id == d.id && d'.pos == d.pos && d'.ttl == d.ttl
    ensures |ps| == 0 ==> d' == d
    ensures |ps| > 0 ==> exists k: nat :: FirstNearest(ps, d.pos, k, |ps|) &&
                                     d'.vel == ChaseVelocity(phys, d.pos, ps[k].pos, frenzy)
    ensures d'.meal.Some? ==>
              && d'.meal.value.since == now && d'.respawn == Some(respawn)
              && exists c :: 0 <= c < |ps| && Within(ps[c], d.pos) && d'.meal.value.victim == ps[c].id &&
                             forall j :: 0 <= j < c ==> !Within(ps[j], d.pos)
    ensures d'.meal.None? ==> d'.respawn == d.respawn
    ensures d'.meal.None? && |ps| > 0 ==> forall j :: 0 <= j < |ps| ==> !Within(ps[j], d.pos)
  {
    match Nearest(ps, d.pos)
    case None => d
    case Some(k) =>
      var chasing := d.(vel := ChaseVelocity(phys, d.pos, ps[k].pos, frenzy));
      match FirstWithin(ps, d.pos)
      case None => chasing
      case Some(c) => chasing.(meal := Some(Meal(ps[c].id, now)), respawn := Some(respawn))
  }

  /** Eat or chase, then move unless (still or newly) eating. A meal that ends
      this tick lets the doge move in the same tick. */
  function Advance(d: Doge, ps: seq<Player>, frenzy: bool, now: int, respawn: Vec, phys: Physics): (a: Doge)
    // still eating: frozen, nothing changes
    ensures d.meal.Some? && now - d.meal.value.since < Config.DogeEatTimeMs ==> a == d
    // the meal is over: released, and it moves on its old velocity
    ensures d.meal.Some? && now - d.meal.value.since >= Config.DogeEatTimeMs ==>
              a == d.(meal := None, pos := d.pos.Plus(d.vel))
    // hungry: the chase decides velocity, meal and respawn point; it stays put
    // on a capture and otherwise moves on the new velocity
    ensures d.meal.None? ==>
              var c := Chase(d, ps, frenzy, now, respawn, phys);
              && a.id == d.id && a.ttl == d.ttl
              && a.vel == c.vel && a.meal == c.meal && a.respawn == c.respawn
              && a.pos == (if c.meal.Some? then d.pos else d.pos.Plus(c.vel))
  {
    var acted :=
      if d.meal.Some? then
        (if now - d.meal.value.since >= Config.DogeEatTimeMs then d.(meal := None) else d)
      else Chase(d, ps, frenzy, now, respawn, phys);
    if acted.meal.None? then acted.(pos := acted.pos.Plus(acted.vel)) else acted
  }

  /** Beyond the envelope 80px outside the canvas. */
  predicate Outside(p: Vec, w: int, h: int) {
    var e := Config.DogeEnvelope;
    p.x < (-e) as real || p.x > (w + e) as real || p.y < (-e) as real || p.y > (h + e) as real
  }

  /** The doge's tick: act, move, age by one tick, and despawn once its
      time-to-live is used up or it has left the envelope. */
  function DogeStep(d: Doge, ps: seq<Player>, frenzy: bool, now: int, w: int, h: int,
                    respawn: Vec, phys: Physics): (r: Option<Doge>)
    ensures r.None? <==> d.ttl - Config.TickMs <= 0 || Outside(Advance(d, ps, frenzy, now, respawn, phys).pos, w, h)
    ensures r.Some? ==> r.value.id == d.id && r.value.ttl == d.ttl - Config.TickMs && r.value.ttl > 0
    ensures r.Some? ==> !Outside(r.value.pos, w, h)
    // still eating: frozen in place
    ensures r.Some? && d.meal.Some? && now - d.meal.value.since < Config.DogeEatTimeMs ==>
              r.value.pos == d.pos && r.value.meal == d.meal && r.value.vel == d.vel
    // the meal is over: cleared, and the doge moves on its old velocity at once
    ensures r.Some? && d.meal.Some? && now - d.meal.value.since >= Config.DogeEatTimeMs ==>
              r.value.meal.None? && r.value.pos == d.pos.Plus(d.vel)
    // a capture this tick: frozen at the capture point, the victim is the
    // first player in key order within reach
    ensures r.Some? && d.meal.None? && r.value.meal.Some? ==>
              && r.value.pos == d.pos && r.value.meal.value.since == now
              && exists c :: 0 <= c < |ps| && Within(ps[c], d.pos) && r.value.meal.value.victim == ps[c].id &&
                             forall j :: 0 <= j < c ==> !Within(ps[j], d.pos)
    // still hungry: it moves on its new chase velocity
    ensures r.Some? && d.meal.None? && r.value.meal.None? ==> r.value.pos == d.pos.Plus(r.value.vel)
    // hungry: velocity, meal and respawn point are the chase's
    ensures r.Some? && d.meal.None? ==>
              var c := Chase(d, ps, frenzy, now, respawn, phys);
              r.value.vel == c.vel && r.value.meal == c.meal && r.value.respawn == c.respawn
    // eating or just released: the velocity and respawn point are kept
    ensures r.Some? && d.meal.Some? ==> r.value.vel == d.vel && r.value.respawn == d.respawn
    ensures d.meal.None? && (exists j :: 0 <= j < |ps| && Within(ps[j], d.pos)) ==> r.None? || r.value.meal.Some?
  {
    var moved := Advance(d, ps, frenzy, now, respawn, phys);
    var aged := moved.(ttl := moved.ttl - Config.TickMs);
    if aged.ttl <= 0 || Outside(aged.pos, w, h) then None else Some(aged)
  }

  // ---------------------------------------------------------------- power-ups, weather

  /** The random power-up: on a successful roll, and only below the cap. */
  function PowerUpRoll(r: Room, roll: bool, seed: PowerUpSeed): (r': Room)
    ensures |r'.powerUps| > |r.powerUps| <==> roll && |r.powerUps| < Config.MaxPowerUps
    ensures |r'.powerUps| > |r.powerUps| ==>
              r'.powerUps == r.powerUps + [SpawnPowerUp(r.settings.canvasWidth, r.settings.canvasHeight, seed)]
    ensures |r'.powerUps| <= |r.powerUps| ==> r' == r
    ensures |r.powerUps| < Config.MaxPowerUps ==> |r'.powerUps| <= Config.MaxPowerUps
    ensures r'.(powerUps := r.powerUps) == r
  {
    if roll && |r.powerUps| < Config.MaxPowerUps then
      r.(powerUps := r.powerUps + [SpawnPowerUp(r.settings.canvasWidth, r.settings.canvasHeight, seed)])
    else r
  }

  /** Weather: start one when none is active and the slot has come, booking the
      next slot a duration plus a cooldown later; clear an active one once the
      cooldown before the next slot has begun. */
  function WeatherStep(r: Room, now: int, kind: WeatherKind): (r': Room)
    ensures r.weather.None? && Due(now, r.schedule.nextWeatherEvent) ==>
              && r'.weather == Some(Weather(kind, Config.WeatherDuration))
              && r'.schedule.nextWeatherEvent == Some(now + Config.WeatherDuration + Config.WeatherCooldown)
    ensures r.weather.None? && !Due(now, r.schedule.nextWeatherEvent) ==> r' == r
    ensures r.weather.Some? && Due(now + Config.WeatherCooldown, r.schedule.nextWeatherEvent) ==> r' == r.(weather := None)
    ensures r.weather.Some? && !Due(now + Config.WeatherCooldown, r.schedule.nextWeatherEvent) ==> r' == r
    ensures (r.weather.Some? ==> r.schedule.nextWeatherEvent.Some?) ==>
              (r'.weather.Some? ==> && r'.schedule.nextWeatherEvent.Some?
                                    && now < r'.schedule.nextWeatherEvent.value - Config.WeatherCooldown)
    ensures r'.(weather := r.weather, schedule := r.schedule) == r
    ensures r'.schedule == r.schedule.(nextWeatherEvent := r'.schedule.nextWeatherEvent)
  {
    var started :=
      if r.weather.None? && Due(now, r.schedule.nextWeatherEvent) then
        var w := SpawnWeather(kind);
        r.(weather := Some(w), schedule := r.schedule.(nextWeatherEvent := Some(now + w.duration + Config.WeatherCooldown)))
      else r;
    var next := started.schedule.nextWeatherEvent;
    if started.weather.Some? && next.Some? && now >= next.value - Config.WeatherCooldown then
      started.(weather := None)
    else started
  }

  // ---------------------------------------------------------------- frenzy mode

  /** `Math.ceil(ms / 1000)`: the whole seconds covering `ms`. */
  function CeilSeconds(ms: int): (s: int)
    ensures (s - 1) * 1000 < ms <= s * 1000
  {
    (ms + 999) / 1000
  }

  /** The burst's treat loop `for (i = 0; i < 3 && treats.length < 12; i++)`. */
  function TopUpTreats(ts: seq<Treat>, w: int, h: int, seeds: nat -> TreatSeed, i: nat): (r: seq<Treat>)
    requires i <= Config.FrenzyBurst
    ensures |r| == |ts| + Min(Config.FrenzyBurst - i, Max(0, Config.FrenzyTreatCap - |ts|))
    ensures r[..|ts|] == ts
    // the treat appended at position k is generated from draw i + (k - |ts|)
    ensures forall k :: |ts| <= k < |r| ==> r[k] == SpawnTreat(w, h, seeds(i + (k - |ts|)))
    decreases Config.FrenzyBurst - i
  {
    if i < Config.FrenzyBurst && |ts| < Config.FrenzyTreatCap then
      var ts1 := ts + [SpawnTreat(w, h, seeds(i))];
      var r := TopUpTreats(ts1, w, h, seeds, i + 1);
      assert r[..|ts|] == (r[..|ts| + 1])[..|ts|];
      assert r[|ts|] == r[..|ts1|][|ts|];
      r
    else ts
  }

  /** The burst's three power-ups, added whatever the cap. */
  function BurstPowerUps(w: int, h: int, seeds: nat -> PowerUpSeed): (ps: seq<PowerUp>)
    ensures |ps| == Config.FrenzyBurst
    ensures forall i :: 0 <= i < |ps| ==> ps[i] == SpawnPowerUp(w, h, seeds(i)) && ps[i].id == seeds(i).id
  {
    seq(Config.FrenzyBurst, i requires 0 <= i < Config.FrenzyBurst => SpawnPowerUp(w, h, seeds(i)))
  }

  /** Frenzy mode. Inactive: refresh the countdown and, once the slot has come,
      activate with a one-shot burst. Active: once the duration past the slot
      has elapsed, deactivate and book the next slot an interval from now. */
  function SauceStep(r: Room, now: int, draws: TickDraws): (r': Room)
    // inactive: the countdown is the whole seconds left until the slot
    ensures !r.sauce.active && r.schedule.nextSecretSauce.Some? ==>
              && r'.sauce.countdown.Some?
              && (r'.sauce.countdown.value - 1) * 1000 < r.schedule.nextSecretSauce.value - now
              && r.schedule.nextSecretSauce.value - now <= r'.sauce.countdown.value * 1000
    ensures !r.sauce.active && r.schedule.nextSecretSauce.None? ==> r'.sauce.countdown.None?
    ensures !r.sauce.active ==> r'.schedule == r.schedule
    // activation and its burst
    ensures !r.sauce.active ==> (r'.sauce.active <==> Due(now, r.schedule.nextSecretSauce))
    ensures !r.sauce.active && r'.sauce.active ==>
              && |r'.powerUps| == |r.powerUps| + Config.FrenzyBurst
              && r'.powerUps[..|r.powerUps|] == r.powerUps
              && |r'.treats| == |r.treats| + Min(Config.FrenzyBurst, Max(0, Config.FrenzyTreatCap - |r.treats|))
              && r'.treats[..|r.treats|] == r.treats
              && (r.doge.None? && draws.frenzyDogeRoll ==>
                    r'.doge == Some(SpawnDoge(r.settings.canvasWidth, r.settings.canvasHeight, draws.frenzyDoge)))
              && (r.doge.Some? || !draws.frenzyDogeRoll ==> r'.doge == r.doge)
              && r'.powerUps == r.powerUps + BurstPowerUps(r.settings.canvasWidth, r.settings.canvasHeight, draws.frenzyPowerUp)
              && r'.treats == TopUpTreats(r.treats, r.settings.canvasWidth, r.settings.canvasHeight, draws.frenzyTreat, 0)
              && r' == r.(sauce := r'.sauce, powerUps := r'.powerUps, treats := r'.treats, doge := r'.doge)
    ensures !r'.sauce.active ==> r'.(sauce := r.sauce, schedule := r.schedule) == r
    // active: stays on until the duration has passed, then reschedules
    ensures r.sauce.active && Due(now, Offset(r.schedule.nextSecretSauce, Config.SecretSauceDuration)) ==>
              && r' == r.(sauce := r.sauce.(active := false),
                          schedule := r.schedule.(nextSecretSauce := Some(now + Config.SecretSauceInterval)))
    ensures r.sauce.active && !Due(now, Offset(r.schedule.nextSecretSauce, Config.SecretSauceDuration)) ==> r' == r
  {
    var next := r.schedule.nextSecretSauce;
    if !r.sauce.active then
      var countdown := if next.Some? then Some(CeilSeconds(next.value - now)) else None;
      if Due(now, next) then
        var w := r.settings.canvasWidth;
        var h := r.settings.canvasHeight;
        r.(sauce := SecretSauce(true, countdown),
           powerUps := r.powerUps + BurstPowerUps(w, h, draws.frenzyPowerUp),
           doge := if draws.frenzyDogeRoll && r.doge.None? then Some(SpawnDoge(w, h, draws.frenzyDoge)) else r.doge,
           treats := TopUpTreats(r.treats, w, h, draws.frenzyTreat, 0))
      else
        r.(sauce := SecretSauce(false, countdown))
    else if Due(now, Offset(next, Config.SecretSauceDuration)) then
      r.(sauce := r.sauce.(active := false),
         schedule := r.schedule.(nextSecretSauce := Some(now + Config.SecretSauceInterval)))
    else r
  }

  /** A deadline shifted by `d` (`undefined + d` stays unusable). */
  function Offset(deadline: Option<int>, d: int): Option<int> {
    if deadline.Some? then Some(deadline.value + d) else None
  }

  // ---------------------------------------------------------------- the tick

  /** Fields no part of the tick writes. */
  predicate SameFrame(r: Room, r': Room) {
    && r'.players == r.players && r'.host == r.host && r'.gameState == r.gameState
    && r'.settings == r.settings && r'.winner == r.winner && r'.lastActivity == r.lastActivity
  }

  /** Treats (motion, then the respawn timer), roombas and lasers. */
  function MoveEntities(r: Room, now: int, phys: Physics, draws: TickDraws): (r': Room)
    ensures SameFrame(r, r')
    ensures r'.doge == r.doge && r'.weather == r.weather && r'.sauce == r.sauce && r'.powerUps == r.powerUps
    ensures r'.schedule == r.schedule.(nextTreatAt := r'.schedule.nextTreatAt)
    ensures r.schedule.nextTreatAt.Some? ==> r'.schedule.nextTreatAt.Some?
    ensures |r.treats| <= Config.FrenzyTreatCap ==> |r'.treats| <= Config.FrenzyTreatCap
    ensures |r'.roombas| == |r.roombas| && |r'.lasers| == |r.lasers|
  {
    var w := r.settings.canvasWidth;
    var h := r.settings.canvasHeight;
    var r1 := TreatTimer(r.(treats := DriftTreats(r.treats, phys)), now, draws.treat);
    r1.(roombas := BounceRoombas(r1.roombas, w, h), lasers := StepLasers(r1.lasers, w, h, draws.retarget, phys))
  }

  /** The doge's spawn timer, then its step when present. */
  function DogePhase(r: Room, now: int, phys: Physics, draws: TickDraws): (r': Room)
    ensures SameFrame(r, r')
    ensures r'.treats == r.treats && r'.weather == r.weather && r'.sauce == r.sauce && r'.powerUps == r.powerUps
    ensures r'.schedule == r.schedule.(nextDogeAt := r'.schedule.nextDogeAt)
    ensures r.schedule.nextDogeAt.Some? ==> r'.schedule.nextDogeAt.Some?
    ensures r'.doge.Some? ==> r'.doge.value.ttl > 0
  {
    var w := r.settings.canvasWidth;
    var h := r.settings.canvasHeight;
    var r1 := DogeTimer(r, now, draws.doge);
    if r1.doge.Some? then
      var respawn := RespawnPoint(w, h, draws.respawn.0, draws.respawn.1);
      r1.(doge := DogeStep(r1.doge.value, Values(r1.players), r1.sauce.active, now, w, h, respawn, phys))
    else r1
  }

  /** updateGameState: every phase in the source's order. */
  function UpdateGameState(r: Room, now: int, phys: Physics, draws: TickDraws): (r': Room)
    ensures SameFrame(r, r')
  {
    var r1 := DogePhase(MoveEntities(r, now, phys, draws), now, phys, draws);
    SauceStep(WeatherStep(PowerUpRoll(r1, draws.powerUpRoll, draws.powerUp), now, draws.weather), now, draws)
  }

  /** A tick keeps the world invariant, and an active weather always has time
      left before its cooldown. */
  lemma TickKeepsWorld(r: Room, now: int, phys: Physics, draws: TickDraws)
    requires WorldOk(r)
    ensures WorldOk(UpdateGameState(r, now, phys, draws))
    ensures var r' := UpdateGameState(r, now, phys, draws);
            r'.weather.Some? ==> now < r'.schedule.nextWeatherEvent.value - Config.WeatherCooldown
  {
    var r1 := MoveEntities(r, now, phys, draws);
    var r2 := DogePhase(r1, now, phys, draws);
    var r3 := PowerUpRoll(r2, draws.powerUpRoll, draws.powerUp);
    var r4 := WeatherStep(r3, now, draws.weather);
    var r5 := SauceStep(r4, now, draws);
    assert WorldOk(r4);
  }
}

=== FILE: wrappers.dfy ===
/** Optional values: stand-ins for JavaScript's `null` / `undefined` fields. */
module Wrappers {

  datatype Option<+T> = None | Some(value: T) {

    /** The value, or `default` when absent (the `x || default` idiom). */
    function GetOr(default: T): T {
      match this
      case Some(v) => v
      case None => default
    }
  }
}
